=== FILE: README.md ===
# SolveWatchGPT core in Dafny

A model of the sequential logic inside the SolveWatchGPT mobile app. It
streams speech transcriptions to a backend over Socket.IO and shows the AI
answers that come back. Five parts are modelled:

- **Socket.IO framing and dispatch** (`Frames`, `DataSocket`, `SpeechSocket`).
  - The Engine.IO v4 handshake URL and the namespace connect packet `40<ns>,`.
  - The prefix classification of inbound text frames, with ping answered by pong.
  - The event dispatch of the `/data-updates` client: status strings and `Answer` records.
  - The `/text-stream` client: question transcriptions and the `text_chunk` encoder.
  - JSON is an abstract tree (`Json`). Parsing is a partial function each client receives.
- **Android transcript accumulation** (`SherpaManager`).
  - The `startListening` guards, and the per-result rule over `lastFinalText` and the endpoint flag.
  - The capture loop's `finally` release of the stream and the recorder.
- **iOS transcript accumulation** (`IosRecognizer`).
  - The committed-prefix logic that hides text already sent.
  - Start, stop and initialise.
- **The provider settings sheet** (`ProviderSettings`).
  - Default order, move up and move down, enabled flags.
  - The `ApiConfig` handed back on save.
- **The view model** (`ViewModel`).
  - The message list, snackbar, option dialog and settings handling.
  - Calls into sockets, recognizer and configuration service are recorded as an ordered effect log.

`Text` holds the Kotlin string functions the code relies on: `trim` with
Kotlin's whitespace set, `substringAfter`, `indexOf`, `replaceFirstChar`
with ASCII case mapping, and decimal formatting. `Model` holds the shared
records `Answer`, `ApiConfig`, `ConfigResponse` and `SpeechState`.

The clock, random ids, connection state, server responses and recognizer
results are all parameters. Each socket connection is a single function
from the frames it receives to the log of what it emits.

Behaviour as written that the model follows:

- The namespace test is a string prefix test. A frame for `/data-updates-x`
  is dispatched by the `/data-updates` client (`Frames.NamespaceMatchIsPrefix`).
- A JSON field read that is not a primitive throws.
  - In the data client the whole event is then dropped.
  - In the text-stream client the `questions` loop stops there, so the
    questions before it are already published (`SpeechSocket.EmitQuestions`).
- A JSON `null` value reads as the text `"null"`.
- At an endpoint the Android manager publishes `lastFinalText + text` after
  appending `text` to `lastFinalText`, so the new text appears twice
  (`SherpaManager.EndpointRepeatsText`). `lastFinalText` is never cleared
  in that file.
- The Android capture loop's `finally` block does not reset `isRecording`
  or `isListening`.
  - After a loop that ended by an exception, `startListening` does nothing
    until `stopListening` is called (`SherpaManager.CrashBlocksRestart`).
  - A failed start after the recorder was opened leaves it open.
- The iOS clear rebuilds the committed prefix from the displayed text with
  single spaces. When the recognizer's text has other spacing, the cleared
  text reappears (`IosRecognizer.DoubleSpaceShowsClearedText`).
- A refused data-socket connect reports "disconnected" but keeps the client's
  session reference. The data client clears it again only through
  `disconnect` or at the end of a later opened session's read loop.
- The text-stream client keeps its session after the read loop ends, and
  only `disconnect` clears it.
- When the socket opens but the namespace connect packet cannot be sent,
  either client keeps the session it already stored. The data client then
  reports "connected" followed by "disconnected" and sends nothing.
- The view model calls `emitUsePrompt`, `sendTranscriptionChunk`,
  `processTranscription` and a `connect` with a status callback. The data
  client source does not define these, so they are recorded as effects.

## Model

| member | source | states |
|---|---|---|
| Text.Trim | composeApp/src/commonMain/kotlin/com/express/solvewatchgpt/network/DataSocketClient.kt:129-130 | `trim` leaves no whitespace (Kotlin's whitespace set) at either end, never grows the text, and gives "" exactly when the text is all whitespace |
| Text.TrimOfPadded | composeApp/src/commonMain/kotlin/com/express/solvewatchgpt/network/DataSocketClient.kt:129-130 | trimming a text that has no whitespace at its ends gives that text back, whatever whitespace surrounds it |
| Text.TrimIdempotent | composeApp/src/iosMain/kotlin/com/express/solvewatchgpt/speech/IosSpeechRecognizer.kt:179 | trimming twice is the same as trimming once |
| Text.IndexOf | composeApp/src/commonMain/kotlin/com/express/solvewatchgpt/network/DataSocketClient.kt:127 | `indexOf` finds the first occurrence, and finds nothing exactly when the character does not occur |
| Text.SubstringAfter | composeApp/src/commonMain/kotlin/com/express/solvewatchgpt/network/DataSocketClient.kt:82 | `substringAfter(",")` gives the text after the first comma, or the whole text when there is no comma |
| Text.SubstringAfterSplit | composeApp/src/commonMain/kotlin/com/express/solvewatchgpt/network/DataSocketClient.kt:82 | the text after the first delimiter of `a + delimiter + b` is `b` when `a` holds no delimiter |
| Text.Capitalize | composeApp/src/commonMain/kotlin/com/express/solvewatchgpt/ui/SettingsBottomSheet.kt:151 | `replaceFirstChar` upper-cases a lower-case first letter and changes nothing else |
| Text.NatToString | composeApp/src/commonMain/kotlin/com/express/solvewatchgpt/network/DataSocketClient.kt:121 | the decimal text of a number has only digits, no leading zero, and reads back as the same number |
| Text.IntToString | composeApp/src/commonMain/kotlin/com/express/solvewatchgpt/network/DataSocketClient.kt:42 | the decimal text of an integer has a sign only when negative and holds no ':', '/' or ',' |
| Json.Content | composeApp/src/commonMain/kotlin/com/express/solvewatchgpt/network/DataSocketClient.kt:86 | `jsonPrimitive.content` fails exactly on arrays and objects; a JSON null reads as "null" |
| Json.ReadField | composeApp/src/commonMain/kotlin/com/express/solvewatchgpt/network/DataSocketClient.kt:94 | a `payload?.get(key)?.jsonPrimitive?.content` read is missing exactly when there is no payload or no key, and fails exactly when the value is not a primitive |
| Frames.SplitUrlParts | composeApp/src/commonMain/kotlin/com/express/solvewatchgpt/network/DataSocketClient.kt:42 | host and port text can be read back from the connection URL when the host has no ':' and the port text has no '/' |
| Frames.UrlRoundTrip | composeApp/src/commonMain/kotlin/com/express/solvewatchgpt/network/DataSocketClient.kt:42 | the connection URL determines the host and the decimal port it was built from |
| Frames.Classify | composeApp/src/commonMain/kotlin/com/express/solvewatchgpt/network/DataSocketClient.kt:73-82 | a frame is an open exactly when it starts with '0', a ping exactly when it starts with '2', and an event exactly when it starts with "42" and the namespace; the event JSON is the text after the first comma |
| Frames.EventFrameRoundTrip | composeApp/src/commonMain/kotlin/com/express/solvewatchgpt/network/DataSocketClient.kt:78-83 | an event frame built for a namespace is classified as an event carrying exactly the array text it was built from |
| Frames.OutboundControlNotDispatched | composeApp/src/commonMain/kotlin/com/express/solvewatchgpt/network/DataSocketClient.kt:74-78 | the client's own namespace connect and pong packets would not be taken for events |
| Frames.NamespaceMatchIsPrefix | composeApp/src/commonMain/kotlin/com/express/solvewatchgpt/network/DataSocketClient.kt:78 | an event for another namespace is dispatched exactly when that namespace starts with the client's namespace |
| DataSocket.SplitResponse | composeApp/src/commonMain/kotlin/com/express/solvewatchgpt/network/DataSocketClient.kt:123-132 | a response that is not "Problem: " with a newline is answered under "AI Response" unchanged; otherwise the question and answer are trimmed, the question holds no newline and both together are shorter than the response |
| DataSocket.SplitResponseRoundTrip | composeApp/src/commonMain/kotlin/com/express/solvewatchgpt/network/DataSocketClient.kt:126-131 | "Problem: " + question + newline + answer splits back into the trimmed question and the trimmed answer |
| DataSocket.MakeAnswer | composeApp/src/commonMain/kotlin/com/express/solvewatchgpt/network/DataSocketClient.kt:119-140 | the answer id is "ans-" and the time, the timestamp is the time, the type is "ai_response", and question and answer come from the split |
| DataSocket.Dispatch | composeApp/src/commonMain/kotlin/com/express/solvewatchgpt/network/DataSocketClient.kt:89-149 | the four status events emit their message only when present; ai_processing_complete emits its message first, then exactly one Answer, built from the response, when the response is non-empty and none otherwise; aiprocessing_error emits "message: error" with missing fields as ""; a field that is not a primitive drops the event; other names emit nothing |
| DataSocket.HandleEvent | composeApp/src/commonMain/kotlin/com/express/solvewatchgpt/network/DataSocketClient.kt:82-89 | JSON that does not parse, is not an array, is empty, names no primitive event or carries a non-object payload emits nothing; otherwise the event is dispatched by its name with the optional object payload |
| DataSocket.HandleMessage | composeApp/src/commonMain/kotlin/com/express/solvewatchgpt/network/DataSocketClient.kt:73-155 | a ping gives exactly one pong, an open nothing, frames for no known prefix nothing, unparsable events nothing; only pings send anything, and no frame changes the connection flag |
| DataSocket.EventRoundTrip | composeApp/src/commonMain/kotlin/com/express/solvewatchgpt/network/DataSocketClient.kt:78-149 | an event encoded for /data-updates with an object payload is dispatched by its name with that payload |
| DataSocket.ReadLoop | composeApp/src/commonMain/kotlin/com/express/solvewatchgpt/network/DataSocketClient.kt:53-59 | the read loop never emits a connection change |
| DataSocket.ReadLoopOneFrame | composeApp/src/commonMain/kotlin/com/express/solvewatchgpt/network/DataSocketClient.kt:54-58 | a text frame is handled at the time read for it and a binary frame is skipped |
| DataSocket.ReadLoopAppend | composeApp/src/commonMain/kotlin/com/express/solvewatchgpt/network/DataSocketClient.kt:54-58 | frames are handled one after another: the log of a split run is the log of its parts, in order |
| DataSocket.OnePongPerPing | composeApp/src/commonMain/kotlin/com/express/solvewatchgpt/network/DataSocketClient.kt:54-77 | over a whole read loop the frames sent are exactly one pong per ping frame |
| DataSocket.SessionLogShape | composeApp/src/commonMain/kotlin/com/express/solvewatchgpt/network/DataSocketClient.kt:46-65 | an opened session reports connected first and disconnected last, with the namespace connect as its first packet |
| DataSocket.Connect | composeApp/src/commonMain/kotlin/com/express/solvewatchgpt/network/DataSocketClient.kt:41-70 | the URL is built from host and port; a refused connection only reports disconnected and keeps the client's session; one whose namespace connect cannot be sent reports connected then disconnected, sends nothing and keeps the session; an opened one reports connected, sends "40/data-updates," first, then logs exactly what the read loop emits, reports disconnected last and ends without a session, sending one pong per ping in between |
| DataSocket.Disconnect | composeApp/src/commonMain/kotlin/com/express/solvewatchgpt/network/DataSocketClient.kt:161-167 | disconnect drops the session and reports disconnected |
| SpeechSocket.QuestionText | composeApp/src/commonMain/kotlin/com/express/solvewatchgpt/network/SpeechSocketClient.kt:87 | a question element without `question` reads as ""; a non-object element or a non-primitive `question` fails |
| SpeechSocket.EmitQuestions | composeApp/src/commonMain/kotlin/com/express/solvewatchgpt/network/SpeechSocketClient.kt:86-89 | one transcription per element, in order, up to the first element that fails; nothing after it |
| SpeechSocket.AllQuestionsPublished | composeApp/src/commonMain/kotlin/com/express/solvewatchgpt/network/SpeechSocketClient.kt:86-89 | when no element fails, every question is published, in order |
| SpeechSocket.Questions | composeApp/src/commonMain/kotlin/com/express/solvewatchgpt/network/SpeechSocketClient.kt:84-85 | a payload whose `questions` is an array publishes its questions; any other payload publishes nothing |
| SpeechSocket.HandleEvent | composeApp/src/commonMain/kotlin/com/express/solvewatchgpt/network/SpeechSocketClient.kt:76-96 | only questions_extracted with at least two array elements publishes; unparsable JSON, other names and a single element publish nothing |
| SpeechSocket.HandleMessage | composeApp/src/commonMain/kotlin/com/express/solvewatchgpt/network/SpeechSocketClient.kt:59-98 | a ping gives one pong, an open nothing, frames not starting "42/text-stream" nothing; events are handled by name |
| SpeechSocket.ReadLoop | composeApp/src/commonMain/kotlin/com/express/solvewatchgpt/network/SpeechSocketClient.kt:43-49 | the read loop sends nothing but pongs and otherwise only publishes transcriptions |
| SpeechSocket.OnePongPerPing | composeApp/src/commonMain/kotlin/com/express/solvewatchgpt/network/SpeechSocketClient.kt:44-70 | over a whole read loop the frames sent are exactly one pong per ping frame |
| SpeechSocket.EncodeTextChunk | composeApp/src/commonMain/kotlin/com/express/solvewatchgpt/network/SpeechSocketClient.kt:104-109 | the outbound frame is exactly `42/text-stream,["text_chunk",{"text": "` + text + `"}]`, the text unescaped |
| SpeechSocket.TextChunkRoundTrip | composeApp/src/commonMain/kotlin/com/express/solvewatchgpt/network/SpeechSocketClient.kt:104-109 | the chunk frame starts with "42/text-stream", the text after its first comma is the event array, and the text sits verbatim between the fixed head and tail |
| SpeechSocket.EchoedChunkIgnored | composeApp/src/commonMain/kotlin/com/express/solvewatchgpt/network/SpeechSocketClient.kt:83-92 | a text_chunk event coming back to this client publishes nothing |
| SpeechSocket.Connect | composeApp/src/commonMain/kotlin/com/express/solvewatchgpt/network/SpeechSocketClient.kt:32-57 | a refused connection changes nothing; one whose namespace connect cannot be sent emits nothing but holds a session; an opened one holds a session, first sends "40/text-stream,", then logs exactly what the read loop emits: one pong per ping and otherwise only transcriptions |
| SpeechSocket.SendTextChunk | composeApp/src/commonMain/kotlin/com/express/solvewatchgpt/network/SpeechSocketClient.kt:100-109 | a chunk is sent only when there is a session |
| SpeechSocket.Disconnect | composeApp/src/commonMain/kotlin/com/express/solvewatchgpt/network/SpeechSocketClient.kt:112-117 | disconnect drops the session |
| IosRecognizer.DisplayText | composeApp/src/iosMain/kotlin/com/express/solvewatchgpt/speech/IosSpeechRecognizer.kt:116-123 | with no committed prefix the full text is shown; with a prefix the full text starts with, the trimmed rest is shown; otherwise the full text |
| IosRecognizer.InitializeModel | composeApp/src/iosMain/kotlin/com/express/solvewatchgpt/speech/IosSpeechRecognizer.kt:33-42 | the model is ready exactly when speech is authorized, and the error is "Speech permission denied" otherwise; nothing else changes |
| IosRecognizer.StartRecording | composeApp/src/iosMain/kotlin/com/express/solvewatchgpt/speech/IosSpeechRecognizer.kt:78-156 | a recording start always cancels the task and resets the committed prefix; an audio session failure sets its fixed error and changes nothing else; an engine failure arms request and task, sets its fixed error and leaves the engine as it was; a full start runs the engine and listens with no error |
| IosRecognizer.StartListening | composeApp/src/iosMain/kotlin/com/express/solvewatchgpt/speech/IosSpeechRecognizer.kt:44-72 | without a ready model only the "Model (Permission) not ready" error is set; without authorization only "Not authorized"; otherwise recording starts |
| IosRecognizer.OnRecognition | composeApp/src/iosMain/kotlin/com/express/solvewatchgpt/speech/IosSpeechRecognizer.kt:103-140 | a result shows its display text and listens while not final; a final result or an error ends listening, stops the engine and drops request and task; an error is recorded; otherwise request, task and engine are kept, and no other field changes |
| IosRecognizer.StopListening | composeApp/src/iosMain/kotlin/com/express/solvewatchgpt/speech/IosSpeechRecognizer.kt:158-164 | stopping changes state only while the engine runs, and then only stops the engine, ends listening and empties the transcription; the committed prefix and the task are kept |
| IosRecognizer.ClearTranscription | composeApp/src/iosMain/kotlin/com/express/solvewatchgpt/speech/IosSpeechRecognizer.kt:166-183 | clearing empties the transcription; a shown text is added to the prefix with a single space and trimmed; an empty display keeps the prefix; nothing else changes |
| IosRecognizer.JoinIsTrimmed | composeApp/src/iosMain/kotlin/com/express/solvewatchgpt/speech/IosSpeechRecognizer.kt:176-179 | joining trimmed texts with the clearing separator needs no further trimming |
| IosRecognizer.ClearExtendsPrefix | composeApp/src/iosMain/kotlin/com/express/solvewatchgpt/speech/IosSpeechRecognizer.kt:174-180 | clearing only extends the committed prefix, by one space and the displayed text |
| IosRecognizer.CommitWholeText | composeApp/src/iosMain/kotlin/com/express/solvewatchgpt/speech/IosSpeechRecognizer.kt:116-118 | a text committed whole displays as empty when it is delivered again |
| IosRecognizer.FirstClearHidesText | composeApp/src/iosMain/kotlin/com/express/solvewatchgpt/speech/IosSpeechRecognizer.kt:167-182 | after a first clear, re-delivering the same full text displays nothing |
| IosRecognizer.DisplayAfterSpace | composeApp/src/iosMain/kotlin/com/express/solvewatchgpt/speech/IosSpeechRecognizer.kt:116-118 | text after the prefix and one space is displayed trimmed |
| IosRecognizer.DisplayOfCommitted | composeApp/src/iosMain/kotlin/com/express/solvewatchgpt/speech/IosSpeechRecognizer.kt:116-118 | a delivery that adds only whitespace after the prefix displays nothing |
| IosRecognizer.LaterClearHidesText | composeApp/src/iosMain/kotlin/com/express/solvewatchgpt/speech/IosSpeechRecognizer.kt:167-182 | with single-space separated text, a later clear commits exactly prefix + space + shown text and hides it on re-delivery |
| IosRecognizer.DoubleSpaceShowsClearedText | composeApp/src/iosMain/kotlin/com/express/solvewatchgpt/speech/IosSpeechRecognizer.kt:167-182 | when the recognizer puts two spaces before new text, the rebuilt prefix no longer matches and the cleared text reappears |
| IosRecognizer.FinalResultEndsSession | composeApp/src/iosMain/kotlin/com/express/solvewatchgpt/speech/IosSpeechRecognizer.kt:125-138 | a final result stops listening and the engine |
| SherpaManager.InitModel | composeApp/src/androidMain/kotlin/com/express/solvewatchgpt/speech/sherpa/SherpaSpeechManager.kt:49-86 | a loaded model makes the recognizer available and changes nothing else; a failure publishes "Sherpa Init Error: " and the message and changes nothing else; `isModelReady` is never set |
| SherpaManager.BufferBytes | composeApp/src/androidMain/kotlin/com/express/solvewatchgpt/speech/sherpa/SherpaSpeechManager.kt:100-101 | the buffer size is the device minimum but at least 4096 bytes |
| SherpaManager.SampleCapacity | composeApp/src/androidMain/kotlin/com/express/solvewatchgpt/speech/sherpa/SherpaSpeechManager.kt:120 | the read buffer holds half the buffer size in 16-bit samples, at least 2048 |
| SherpaManager.StartListening | composeApp/src/androidMain/kotlin/com/express/solvewatchgpt/speech/sherpa/SherpaSpeechManager.kt:89-171 | without a recognizer only "Sherpa model not loaded yet." is set; while recording nothing happens; a start listens with no error, releases any old stream before creating one, and keeps `lastFinalText`; a failure sets "Mic Error: " and the message and leaves recording off; a recorder that fails to construct changes nothing else; a recorder that fails to start stays open; a stream that fails to create leaves the recorder open, the old stream released and `isListening` set; no start changes the recognizer or `lastFinalText` |
| SherpaManager.ApplyResult | composeApp/src/androidMain/kotlin/com/express/solvewatchgpt/speech/sherpa/SherpaSpeechManager.kt:139-148 | empty text changes nothing; a partial result shows `lastFinalText + text`; an endpoint appends text to `lastFinalText`, resets the stream and shows the new `lastFinalText + text`; nothing else changes |
| SherpaManager.EndpointRepeatsText | composeApp/src/androidMain/kotlin/com/express/solvewatchgpt/speech/sherpa/SherpaSpeechManager.kt:143-147 | at an endpoint the new text is shown twice |
| SherpaManager.FeedAccumulates | composeApp/src/androidMain/kotlin/com/express/solvewatchgpt/speech/sherpa/SherpaSpeechManager.kt:122-151 | over the loop `lastFinalText` grows by exactly the endpoint texts, in order, and is never cleared |
| SherpaManager.FeedOnlyResets | composeApp/src/androidMain/kotlin/com/express/solvewatchgpt/speech/sherpa/SherpaSpeechManager.kt:122-151 | the loop's only resource calls are one stream reset per non-empty endpoint |
| SherpaManager.FeedKeeps | composeApp/src/androidMain/kotlin/com/express/solvewatchgpt/speech/sherpa/SherpaSpeechManager.kt:122-151 | the loop changes nothing but the transcription, `lastFinalText` and the resource calls |
| SherpaManager.StopListening | composeApp/src/androidMain/kotlin/com/express/solvewatchgpt/speech/sherpa/SherpaSpeechManager.kt:173-178 | stopping turns recording and listening off |
| SherpaManager.FinishLoop | composeApp/src/androidMain/kotlin/com/express/solvewatchgpt/speech/sherpa/SherpaSpeechManager.kt:154-164 | the `finally` block releases a held stream, stops and releases a held recorder and drops both, leaving the published state alone |
| SherpaManager.SessionCallLog | composeApp/src/androidMain/kotlin/com/express/solvewatchgpt/speech/sherpa/SherpaSpeechManager.kt:103-164 | a session's resource calls are: open and start the recorder, create the stream, any resets, release the stream, stop and release the recorder |
| SherpaManager.SessionCallCounts | composeApp/src/androidMain/kotlin/com/express/solvewatchgpt/speech/sherpa/SherpaSpeechManager.kt:103-164 | a session creates one stream and releases it, the recorder, once each |
| SherpaManager.SessionReleasesOnce | composeApp/src/androidMain/kotlin/com/express/solvewatchgpt/speech/sherpa/SherpaSpeechManager.kt:103-178 | however the loop ends, nothing stays held; only a stopped session turns listening off; `lastFinalText` keeps every endpoint text |
| SherpaManager.CrashBlocksRestart | composeApp/src/androidMain/kotlin/com/express/solvewatchgpt/speech/sherpa/SherpaSpeechManager.kt:152-178 | after a crashed loop `isRecording` stays set, so a start does nothing until stopListening is called, after which a start records again |
| ProviderSettings.InitialOrder | composeApp/src/commonMain/kotlin/com/express/solvewatchgpt/ui/SettingsBottomSheet.kt:55 | the rows follow the configured order, or openai, grok, gemini when it is empty |
| ProviderSettings.EnabledFlags | composeApp/src/commonMain/kotlin/com/express/solvewatchgpt/ui/SettingsBottomSheet.kt:67-71 | exactly the configured enabled providers get a true flag |
| ProviderSettings.Open | composeApp/src/commonMain/kotlin/com/express/solvewatchgpt/ui/SettingsBottomSheet.kt:55-71 | the sheet opens with the initial order, the configured keys, and a provider enabled exactly when it is configured as enabled |
| ProviderSettings.RemoveAt | composeApp/src/commonMain/kotlin/com/express/solvewatchgpt/ui/SettingsBottomSheet.kt:98 | `removeAt` drops one element and shifts the rest down |
| ProviderSettings.InsertAt | composeApp/src/commonMain/kotlin/com/express/solvewatchgpt/ui/SettingsBottomSheet.kt:99 | `add(index, x)` puts x at the index and shifts the rest up |
| ProviderSettings.MoveUpSwaps | composeApp/src/commonMain/kotlin/com/express/solvewatchgpt/ui/SettingsBottomSheet.kt:97-100 | moving row i up swaps rows i-1 and i and leaves the rest |
| ProviderSettings.MoveDownSwaps | composeApp/src/commonMain/kotlin/com/express/solvewatchgpt/ui/SettingsBottomSheet.kt:101-104 | moving row i down swaps rows i and i+1 and leaves the rest |
| ProviderSettings.MoveUpThenDown | composeApp/src/commonMain/kotlin/com/express/solvewatchgpt/ui/SettingsBottomSheet.kt:97-104 | moving up then back down restores the order, and so does the reverse |
| ProviderSettings.MoveUpPermutes | composeApp/src/commonMain/kotlin/com/express/solvewatchgpt/ui/SettingsBottomSheet.kt:98-99 | moving up keeps the same providers |
| ProviderSettings.MoveDownPermutes | composeApp/src/commonMain/kotlin/com/express/solvewatchgpt/ui/SettingsBottomSheet.kt:102-103 | moving down keeps the same providers |
| ProviderSettings.EnabledInOrder | composeApp/src/commonMain/kotlin/com/express/solvewatchgpt/ui/SettingsBottomSheet.kt:113 | the enabled list holds a provider exactly when it is listed and its flag is true |
| ProviderSettings.EnabledInOrderAppend | composeApp/src/commonMain/kotlin/com/express/solvewatchgpt/ui/SettingsBottomSheet.kt:113 | the filter commutes with concatenation, so it keeps the display order |
| ProviderSettings.EnabledInOrderIsSubsequence | composeApp/src/commonMain/kotlin/com/express/solvewatchgpt/ui/SettingsBottomSheet.kt:113 | the enabled list is a subsequence of the displayed order |
| ProviderSettings.EnabledInOrderCounts | composeApp/src/commonMain/kotlin/com/express/solvewatchgpt/ui/SettingsBottomSheet.kt:113 | the enabled list holds every copy of an enabled provider and none of a disabled one |
| ProviderSettings.Save | composeApp/src/commonMain/kotlin/com/express/solvewatchgpt/ui/SettingsBottomSheet.kt:109-121 | the saved configuration has every edited key, the rows' order, and the enabled providers picked out of the order without reordering, each as often as it is listed, and no disabled one |
| ProviderSettings.ReopenAfterSave | composeApp/src/commonMain/kotlin/com/express/solvewatchgpt/ui/SettingsBottomSheet.kt:55-119 | reopening on a saved configuration shows the same rows, keys and enabled providers |
| ProviderSettings.SaveUnedited | composeApp/src/commonMain/kotlin/com/express/solvewatchgpt/ui/SettingsBottomSheet.kt:55-119 | saving without edits returns the opened keys and order, enabled providers filtered to the listed ones |
| ProviderSettings.EditsPermuteProviders | composeApp/src/commonMain/kotlin/com/express/solvewatchgpt/ui/SettingsBottomSheet.kt:90-104 | no sequence of edits adds or removes a provider |
| ProviderSettings.EditsKeepOtherKeys | composeApp/src/commonMain/kotlin/com/express/solvewatchgpt/ui/SettingsBottomSheet.kt:93-95 | edits keep the key of every provider whose key they do not edit |
| ProviderSettings.KeyFieldOf | composeApp/src/commonMain/kotlin/com/express/solvewatchgpt/ui/SettingsBottomSheet.kt:175-184 | the key field appears exactly for enabled providers, labelled with the id, and its placeholder is "Key Configured" exactly when the key is "***" |
| ViewModel.AnswerMessage | composeApp/src/commonMain/kotlin/com/express/solvewatchgpt/speech/SpeechViewModel.kt:86-91 | an answer becomes a non-user message with its id, answer text and timestamp |
| ViewModel.ReceiveAnswer | composeApp/src/commonMain/kotlin/com/express/solvewatchgpt/speech/SpeechViewModel.kt:84-95 | an answer is appended after the existing messages and nothing else changes |
| ViewModel.AnswersAppendInOrder | composeApp/src/commonMain/kotlin/com/express/solvewatchgpt/speech/SpeechViewModel.kt:84-95 | answers are appended in arrival order after the messages already there |
| ViewModel.ReceiveStatus | composeApp/src/commonMain/kotlin/com/express/solvewatchgpt/speech/SpeechViewModel.kt:99-103 | a status string is shown in the snackbar and recorded in its history; nothing else changes |
| ViewModel.ToggleSocketConnection | composeApp/src/commonMain/kotlin/com/express/solvewatchgpt/speech/SpeechViewModel.kt:106-121 | connected: disconnect; otherwise connect to 192.168.0.106:4000, and a connect that raises shows "Socket connection refused"; nothing else changes |
| ViewModel.ErrorOr | composeApp/src/commonMain/kotlin/com/express/solvewatchgpt/speech/SpeechViewModel.kt:136 | a response's error text, or the fallback when there is no response or no error |
| ViewModel.OpenSettings | composeApp/src/commonMain/kotlin/com/express/solvewatchgpt/speech/SpeechViewModel.kt:123-143 | shows the fetching notice first; a successful response opens the sheet, clears the snackbar and replaces the configuration only when it carries one; a failure keeps sheet and configuration and shows the error or the fallback; a raised fetch shows the network error; messages, selection and dialog are untouched |
| ViewModel.CloseSettings | composeApp/src/commonMain/kotlin/com/express/solvewatchgpt/speech/SpeechViewModel.kt:145-147 | closing the sheet changes nothing else |
| ViewModel.SaveSettings | composeApp/src/commonMain/kotlin/com/express/solvewatchgpt/speech/SpeechViewModel.kt:149-161 | shows "Saving..." first; success takes the response's configuration (even none), closes the sheet and shows "Configuration saved!"; failure keeps both and shows the error or "Failed to save"; messages, selection and dialog are untouched |
| ViewModel.DismissSnackbar | composeApp/src/commonMain/kotlin/com/express/solvewatchgpt/speech/SpeechViewModel.kt:167-169 | dismissing clears the snackbar; nothing else changes |
| ViewModel.StartListening | composeApp/src/commonMain/kotlin/com/express/solvewatchgpt/speech/SpeechViewModel.kt:173-175 | only forwards to the recognizer |
| ViewModel.StopListening | composeApp/src/commonMain/kotlin/com/express/solvewatchgpt/speech/SpeechViewModel.kt:177-179 | only forwards to the recognizer |
| ViewModel.ClearTranscription | composeApp/src/commonMain/kotlin/com/express/solvewatchgpt/speech/SpeechViewModel.kt:209-211 | only forwards to the recognizer |
| ViewModel.TriggerManualProcessing | composeApp/src/commonMain/kotlin/com/express/solvewatchgpt/speech/SpeechViewModel.kt:181-207 | acts only when connected with a non-blank transcription: one user message with the transcription, then send, clear and process in that order |
| ViewModel.OpenMessageOptions | composeApp/src/commonMain/kotlin/com/express/solvewatchgpt/speech/SpeechViewModel.kt:213-216 | selects the message and opens the dialog |
| ViewModel.CloseMessageOptions | composeApp/src/commonMain/kotlin/com/express/solvewatchgpt/speech/SpeechViewModel.kt:218-221 | closes the dialog and clears the selection |
| ViewModel.CommandText | composeApp/src/commonMain/kotlin/com/express/solvewatchgpt/speech/SpeechViewModel.kt:231-234 | "Debug (Snapshot)" for debug; otherwise the capitalised type followed by a trailing space |
| ViewModel.SendPromptOption | composeApp/src/commonMain/kotlin/com/express/solvewatchgpt/speech/SpeechViewModel.kt:223-253 | with a selection while connected: one user command message, then the prompt emitted for the selected message; otherwise the fixed snackbar text and no message; the dialog closes either way, and the settings sheet and configuration are untouched |
| ViewModel.ApplyGrows | composeApp/src/commonMain/kotlin/com/express/solvewatchgpt/speech/SpeechViewModel.kt:84-253 | every event only appends to messages, collaborator calls and snackbar history, and the snackbar keeps showing its latest value |
| ViewModel.StartsInitialized | composeApp/src/commonMain/kotlin/com/express/solvewatchgpt/speech/SpeechViewModel.kt:79-82 | from construction on, the first collaborator call is the recognizer's model initialization and the snackbar shows the last value set |
| ViewModel.MessagesOnlyGrow | composeApp/src/commonMain/kotlin/com/express/solvewatchgpt/speech/SpeechViewModel.kt:84-253 | over any event sequence earlier messages are never changed or removed |

## Left out

- Compose UI, drawing, the audio visualiser and the permission handlers. These are rendering and platform flows.
- Dependency wiring and app bootstrap: `Modules*.kt`, `SolveWatchGPTApp.kt`, `App.kt`, and `AudioViewModel.kt`, which only delegates.
- `ConfigRepository.kt`: HTTP I/O. Its responses (or a raised call) are parameters of `ViewModel.OpenSettings` and `ViewModel.SaveSettings`.
- The Ktor WebSocket transport, coroutine scopes, job cancellation and `StateFlow`/`SharedFlow` plumbing. Emissions are sequential logs, and a connection is its whole list of received frames.
- JSON parsing and serialisation (kotlinx.serialization): parsing is an abstract partial function.
- The Sherpa-ONNX recognizer, `AudioRecord`, `SFSpeechRecognizer` and `AVAudioEngine` internals. Each is a sequence of results, outcome parameters, or flags plus a call log.
- Float handling: PCM-to-float normalisation and `audioLevel`.
- Model asset copying, download and unzip (file I/O).
- `getTimeMillis()` and `(0..100000).random()`. They are the `now`/`clock` and `rnd` parameters, and `rnd` is not bounded in the model.
- Exceptions raised inside the Android `finally` block itself. A failing `stream.release()` is not modelled.
- A second Android start racing a `finally` block that has not yet run.
- iOS: cancelling a previous recognition task, the tap installation, and an exception message escaping `startRecording`. These are foreign calls.
- Non-ASCII case mapping in `replaceFirstChar`: only 'a'..'z' are treated as lower case.
- The text-stream client's interim `session_started` log line (console output only).

=== FILE: DataSocket.dfy ===
/**
  The data-updates socket client: it connects to the `/data-updates`
  namespace, answers pings, and turns the server's processing events into
  status strings and `Answer` records.

  Every output of a session is one entry of an ordered log: a frame sent,
  a status message, an answer, or a value on the connection-state stream.
 */
module DataSocket {
  import opened Wrappers
  import opened Text
  import opened Json
  import opened Model
  import opened Frames

  const Namespace := "/data-updates"

  datatype Emission =
    | Send(frame: string)
    | Status(message: string)
    | NewAnswer(answer: Answer)
    | Connection(up: bool)

  /** The frames a log sends, in order. */
  function Sends(log: seq<Emission>): seq<string> {
    if log == [] then []
    else (if log[0].Send? then [log[0].frame] else []) + Sends(log[1..])
  }

  lemma {:induction false} SendsAppend(a: seq<Emission>, b: seq<Emission>)
    ensures Sends(a + b) == Sends(a) + Sends(b)
    decreases |a|
  {
    if a == [] {
      assert a + b == b;
    } else {
      var h := if a[0].Send? then [a[0].frame] else [];
      assert (a + b)[1..] == a[1..] + b;
      assert Sends(a + b) == h + Sends(a[1..] + b);
      SendsAppend(a[1..], b);
      assert h + (Sends(a[1..]) + Sends(b)) == (h + Sends(a[1..])) + Sends(b);
    }
  }

  /** The answers a log delivers, in order. */
  function Answers(log: seq<Emission>): seq<Answer> {
    if log == [] then []
    else (if log[0].NewAnswer? then [log[0].answer] else []) + Answers(log[1..])
  }

  const ProblemPrefix := "Problem: "

  /** Splits an AI response of the form "Problem: <question>\n<answer>" into
      its trimmed question and answer. Any other response is answered under
      the generic question "AI Response". */
  function SplitResponse(response: string): (r: (string, string))
    ensures !StartsWith(response, ProblemPrefix) || '\n' !in response ==> r == ("AI Response", response)
    ensures StartsWith(response, ProblemPrefix) && '\n' in response ==>
              Trimmed(r.0) && Trimmed(r.1) && '\n' !in r.0 && |r.0| + |r.1| < |response|
  {
    if StartsWith(response, ProblemPrefix) then
      match IndexOf(response, '\n')
      case None => ("AI Response", response)
      case Some(k) =>
        assert forall j :: 0 <= j < |ProblemPrefix| ==> response[j] == ProblemPrefix[j];
        assert 9 <= k;
        var q := Trim(response[9..k]);
        assert '\n' !in q by {
          assert '\n' !in response[9..k];
          assert Trim(response[9..k]) == q;
          TrimIsInner(response[9..k]);
        }
        (q, Trim(response[k + 1..]))
    else ("AI Response", response)
  }

  /** A "Problem: " response splits back into the question and answer it was
      written from, each trimmed. */
  lemma SplitResponseRoundTrip(question: string, answer: string)
    requires '\n' !in question
    ensures SplitResponse(ProblemPrefix + question + "\n" + answer) == (Trim(question), Trim(answer))
  {
    var response := ProblemPrefix + question + "\n" + answer;
    assert response == (ProblemPrefix + question) + ['\n'] + answer;
    IndexOfSplit(ProblemPrefix + question, '\n', answer);
    assert response[..9] == ProblemPrefix;
    assert response[9..9 + |question|] == question;
    assert response[9 + |question| + 1..] == answer;
  }

  /** The `Answer` built for a non-empty AI response received at time `now`. */
  function MakeAnswer(response: string, now: int): (a: Answer)
    ensures a.id == "ans-" + IntToString(now) && a.timestamp == now && a.kind == "ai_response"
    ensures (a.question, a.answer) == SplitResponse(response)
  {
    var (q, ans) := SplitResponse(response);
    Answer("ans-" + IntToString(now), q, ans, now, "ai_response")
  }

  /** The events whose only effect is to surface their `message`. */
  const StatusEvents: set<string> := {"screenshot_captured", "ocr_started", "ocr_complete", "ai_processing_started"}

  /** One event, by name. A field read that throws in Kotlin drops the whole
      event; in every branch the throwing reads come before any emission. */
  function Dispatch(name: string, payload: Option<map<string, JsonValue>>, now: int): (r: seq<Emission>)
    ensures forall e :: e in r ==> e.Status? || e.NewAnswer?
    ensures name in StatusEvents ==>
              var m := ReadField(payload, "message");
              (m.Text? ==> r == [Status(m.value)]) && (!m.Text? ==> r == [])
    ensures name == "ai_processing_complete" ==>
              var m := ReadField(payload, "message");
              var resp := ReadField(payload, "response");
              && (m.Fails? || resp.Fails? ==> r == [])
              && (!m.Fails? && !resp.Fails? ==>
                    && |r| == (if m.Text? then 1 else 0) + |Answers(r)|
                    && (Answers(r) != [] <==> resp.Text? && resp.value != "")
                    && (resp.Text? && resp.value != "" ==> r[|r| - 1] == NewAnswer(MakeAnswer(resp.value, now)))
                    && (m.Text? ==> r[0] == Status(m.value))
                    && Answers(r) == (if resp.Text? && resp.value != "" then [MakeAnswer(resp.value, now)] else []))
    ensures name == "aiprocessing_error" ==>
              var e := ReadField(payload, "error");
              var m := ReadField(payload, "message");
              (e.Fails? || m.Fails? ==> r == []) &&
              (!e.Fails? && !m.Fails? ==> r == [Status(m.OrElse("") + ": " + e.OrElse(""))])
    ensures name !in StatusEvents && name !in {"ai_processing_complete", "aiprocessing_error"} ==> r == []
  {
    if name == "connected" then []
    else if name in StatusEvents then
      match ReadField(payload, "message")
      case Text(m) => [Status(m)]
      case _ => []
    else if name == "ai_processing_complete" then
      var m := ReadField(payload, "message");
      var resp := ReadField(payload, "response");
      if m.Fails? || resp.Fails? then []
      else
        var status := if m.Text? then [Status(m.value)] else [];
        var response := resp.OrElse("");
        var answer := if response != "" then [NewAnswer(MakeAnswer(response, now))] else [];
        assert Answers(status) == [];
        assert Answers(answer) == (if response != "" then [MakeAnswer(response, now)] else []);
        AnswersAppend(status, answer);
        status + answer
    else if name == "aiprocessing_error" then
      var e := ReadField(payload, "error");
      var m := ReadField(payload, "message");
      if e.Fails? || m.Fails? then [] else [Status(m.OrElse("") + ": " + e.OrElse(""))]
    else []
  }

  lemma {:induction false} AnswersAppend(a: seq<Emission>, b: seq<Emission>)
    ensures Answers(a + b) == Answers(a) + Answers(b)
    decreases |a|
  {
    if a == [] {
      assert a + b == b;
    } else {
      var h := if a[0].NewAnswer? then [a[0].answer] else [];
      assert (a + b)[1..] == a[1..] + b;
      assert Answers(a + b) == h + Answers(a[1..] + b);
      AnswersAppend(a[1..], b);
      assert h + (Answers(a[1..]) + Answers(b)) == (h + Answers(a[1..])) + Answers(b);
    }
  }

  /** The JSON part of an event frame: an array whose first element names the
      event and whose optional second element must be an object. */
  function HandleEvent(json: string, parse: string -> Option<JsonValue>, now: int): (r: seq<Emission>)
    ensures parse(json).None? ==> r == []
    ensures parse(json).Some? && !parse(json).value.JArray? ==> r == []
    ensures parse(json).Some? && parse(json).value.JArray? ==>
              var items := parse(json).value.items;
              && (items == [] ==> r == [])
              && (items != [] && Content(items[0]).None? ==> r == [])
              && (|items| >= 2 && !items[1].JObject? ==> r == [])
              && (items != [] && Content(items[0]).Some? && (|items| == 1 || items[1].JObject?) ==>
                    r == Dispatch(Content(items[0]).value, if |items| >= 2 then Some(items[1].fields) else None, now))
    ensures forall e :: e in r ==> e.Status? || e.NewAnswer?
  {
    match parse(json)
    case Some(JArray(items)) =>
      if |items| == 0 then []
      else (
        match Content(items[0])
        case None => []
        case Some(name) =>
          if |items| >= 2 && !items[1].JObject? then []
          else Dispatch(name, if |items| >= 2 then Some(items[1].fields) else None, now))
    case _ => []
  }

  /** `handleMessage`: one inbound text frame, received at time `now`. */
  function HandleMessage(text: string, parse: string -> Option<JsonValue>, now: int): (r: seq<Emission>)
    ensures |text| > 0 && text[0] == '2' ==> r == [Send(Pong)]
    ensures |text| > 0 && text[0] == '0' ==> r == []
    ensures !StartsWith(text, "42" + Namespace) && !(|text| > 0 && text[0] == '2') ==> r == []
    ensures parse(SubstringAfter(text, ',')).None? && !(|text| > 0 && text[0] == '2') ==> r == []
    ensures StartsWith(text, "42" + Namespace) ==> r == HandleEvent(SubstringAfter(text, ','), parse, now)
    ensures Sends(r) == (if |text| > 0 && text[0] == '2' then [Pong] else [])
    ensures forall e :: e in r ==> !e.Connection?
  {
    match Classify(Namespace, text)
    case EngineOpen => []
    case EnginePing => [Send(Pong)]
    case NamespaceEvent(json) =>
      var r := HandleEvent(json, parse, now);
      NoSendsWithoutSend(r);
      r
    case Unhandled => []
  }

  lemma {:induction false} NoSendsWithoutSend(log: seq<Emission>)
    requires forall e :: e in log ==> !e.Send?
    ensures Sends(log) == []
    decreases |log|
  {
    if log != [] {
      assert log[0] in log;
      assert forall e :: e in log[1..] ==> e in log;
      NoSendsWithoutSend(log[1..]);
    }
  }

  /** An event the server encodes for this namespace is dispatched by name
      with its object payload. */
  lemma EventRoundTrip(name: string, fields: map<string, JsonValue>, json: string, parse: string -> Option<JsonValue>, now: int)
    requires parse(json) == Some(JArray([JString(name), JObject(fields)]))
    ensures HandleMessage(EventFrame(Namespace, json), parse, now) == Dispatch(name, Some(fields), now)
  {
    var text := EventFrame(Namespace, json);
    EventFrameRoundTrip(Namespace, json);
    assert HandleMessage(text, parse, now) == HandleEvent(json, parse, now);
    assert Content(JString(name)) == Some(name);
  }

  /** A frame as delivered by the WebSocket: only text frames are read. */
  datatype WsFrame = TextFrame(text: string) | BinaryFrame

  predicate IsPing(f: WsFrame) {
    f.TextFrame? && |f.text| > 0 && f.text[0] == '2'
  }

  function CountPings(frames: seq<WsFrame>): nat {
    if frames == [] then 0 else (if IsPing(frames[0]) then 1 else 0) + CountPings(frames[1..])
  }

  /** The read loop over the frames received before the connection ended
      (normally or by an exception). `clock(i)` is the time read while
      handling the i-th frame. */
  function ReadLoop(frames: seq<WsFrame>, parse: string -> Option<JsonValue>, clock: nat -> int, index: nat): (r: seq<Emission>)
    ensures forall e :: e in r ==> !e.Connection?
    decreases |frames|
  {
    if frames == [] then []
    else
      var here := match frames[0]
        case TextFrame(t) => HandleMessage(t, parse, clock(index))
        case BinaryFrame => [];
      here + ReadLoop(frames[1..], parse, clock, index + 1)
  }

  /** A single frame: a text frame is handled at the time read for it, a
      binary frame is skipped. */
  lemma ReadLoopOneFrame(f: WsFrame, parse: string -> Option<JsonValue>, clock: nat -> int, index: nat)
    ensures f.TextFrame? ==> ReadLoop([f], parse, clock, index) == HandleMessage(f.text, parse, clock(index))
    ensures f.BinaryFrame? ==> ReadLoop([f], parse, clock, index) == []
  {
  }

  /** The loop handles frames one after another: the log of a run split in
      two is the log of the first part followed by the log of the second. */
  lemma {:induction false} ReadLoopAppend(a: seq<WsFrame>, b: seq<WsFrame>, parse: string -> Option<JsonValue>,
                                          clock: nat -> int, index: nat)
    ensures ReadLoop(a + b, parse, clock, index) == ReadLoop(a, parse, clock, index) + ReadLoop(b, parse, clock, index + |a|)
    decreases |a|
  {
    if a == [] {
      assert a + b == b;
    } else {
      var here := match a[0]
        case TextFrame(t) => HandleMessage(t, parse, clock(index))
        case BinaryFrame => [];
      assert (a + b)[0] == a[0];
      assert (a + b)[1..] == a[1..] + b;
      assert ReadLoop(a + b, parse, clock, index) == here + ReadLoop(a[1..] + b, parse, clock, index + 1);
      ReadLoopAppend(a[1..], b, parse, clock, index + 1);
      assert here + (ReadLoop(a[1..], parse, clock, index + 1) + ReadLoop(b, parse, clock, index + 1 + |a[1..]|))
          == (here + ReadLoop(a[1..], parse, clock, index + 1)) + ReadLoop(b, parse, clock, index + |a|);
    }
  }

  /** The read loop answers every ping with exactly one pong and sends
      nothing else. */
  lemma {:induction false} OnePongPerPing(frames: seq<WsFrame>, parse: string -> Option<JsonValue>, clock: nat -> int, index: nat)
    ensures Sends(ReadLoop(frames, parse, clock, index)) == seq(CountPings(frames), _ => Pong)
    decreases |frames|
  {
    if frames != [] {
      var here := match frames[0]
        case TextFrame(t) => HandleMessage(t, parse, clock(index))
        case BinaryFrame => [];
      OnePongPerPing(frames[1..], parse, clock, index + 1);
      SendsAppend(here, ReadLoop(frames[1..], parse, clock, index + 1));
      if !frames[0].TextFrame? {
        assert Sends(here) == [];
      }
    }
  }

  /** How the transport's connection attempt went: refused; opened, but the
      namespace connect packet could not be sent; or opened and then closed
      after delivering `frames`. */
  datatype ConnectOutcome = Refused | NamespaceSendFailed | Opened(frames: seq<WsFrame>)

  /** The client's only state: whether it holds a live session. */
  datatype Client = Client(hasSession: bool)

  datatype Run = Run(url: string, client: Client, log: seq<Emission>)

  /** The log of an opened connection around the read loop's emissions. */
  function SessionLog(body: seq<Emission>): seq<Emission> {
    [Connection(true), Send(NamespaceConnect(Namespace))] + body + [Connection(false)]
  }

  /** The connection flag is raised first and lowered last, and in between
      only the namespace connect is added to what the loop sends. */
  lemma SessionLogShape(body: seq<Emission>)
    requires forall e :: e in body ==> !e.Connection?
    ensures var log := SessionLog(body);
            && |log| == |body| + 3
            && log[0] == Connection(true)
            && log[1] == Send(NamespaceConnect(Namespace))
            && log[|log| - 1] == Connection(false)
            && (forall i :: 1 <= i < |log| - 1 ==> !log[i].Connection?)
            && Sends(log) == [NamespaceConnect(Namespace)] + Sends(body)
  {
    var log := SessionLog(body);
    assert forall i :: 2 <= i < |log| - 1 ==> log[i] == body[i - 2];
    SendsAppend([Connection(true), Send(NamespaceConnect(Namespace))], body);
    SendsAppend([Connection(true), Send(NamespaceConnect(Namespace))] + body, [Connection(false)]);
  }

  /** `connect(host, port)` from start to the end of the read loop. */
  function Connect(c: Client, host: string, port: int, outcome: ConnectOutcome,
                   parse: string -> Option<JsonValue>, clock: nat -> int): (r: Run)
    ensures r.url == ConnectionUrl(host, port)
    ensures outcome.Refused? ==> r.client == c && r.log == [Connection(false)]
    ensures outcome.NamespaceSendFailed? ==>
              r.client.hasSession && r.log == [Connection(true), Connection(false)] && Sends(r.log) == []
    ensures outcome.Opened? ==>
              && !r.client.hasSession
              && |r.log| >= 3
              && r.log[0] == Connection(true)
              && r.log[1] == Send(NamespaceConnect(Namespace))
              && r.log[|r.log| - 1] == Connection(false)
              && (forall i :: 1 <= i < |r.log| - 1 ==> !r.log[i].Connection?)
              && Sends(r.log) == [NamespaceConnect(Namespace)] + seq(CountPings(outcome.frames), _ => Pong)
              && r.log == SessionLog(ReadLoop(outcome.frames, parse, clock, 0))
  {
    var url := ConnectionUrl(host, port);
    match outcome
    case Refused => Run(url, c, [Connection(false)])
    case NamespaceSendFailed =>
      assert Sends([Connection(false)]) == [];
      Run(url, Client(true), [Connection(true), Connection(false)])
    case Opened(frames) =>
      var body := ReadLoop(frames, parse, clock, 0);
      OnePongPerPing(frames, parse, clock, 0);
      SessionLogShape(body);
      Run(url, Client(false), SessionLog(body))
  }

  /** `disconnect()`: drop the session and report the connection down. */
  function Disconnect(c: Client): (r: (Client, seq<Emission>))
    ensures !r.0.hasSession && r.1 == [Connection(false)]
  {
    (Client(false), [Connection(false)])
  }
}

=== FILE: Frames.dfy ===
/**
  The hand-rolled Socket.IO framing shared by both socket clients: the
  Engine.IO v4 handshake URL, the packet prefixes of Engine.IO (0 open,
  2 ping, 3 pong, 4 message) and of Socket.IO v5 (`40<ns>,` connect,
  `42<ns>,<json array>` event), and the prefix test that classifies an
  inbound text frame.
 */
module Frames {
  import opened Wrappers
  import opened Text

  const UrlPath := "/socket.io/?EIO=4&transport=websocket"

  /** The WebSocket URL both clients connect to. */
  function ConnectionUrl(host: string, port: int): string {
    "ws://" + host + ":" + IntToString(port) + UrlPath
  }

  /** Reads host and port text back out of a connection URL: the host runs to
      the first ':', the port from there to the first '/' that starts the
      fixed Engine.IO path. */
  function SplitUrl(url: string): (r: Option<(string, string)>)
    ensures r.Some? ==> StartsWith(url, "ws://")
  {
    if !StartsWith(url, "ws://") then None
    else
      var rest := url[5..];
      match IndexOf(rest, ':')
      case None => None
      case Some(i) =>
        var afterColon := rest[i + 1..];
        match IndexOf(afterColon, '/')
        case None => None
        case Some(j) => if afterColon[j..] == UrlPath then Some((rest[..i], afterColon[..j])) else None
  }

  /** Splitting a URL built from a host without ':' and a port text without
      '/' gives both back. */
  lemma SplitUrlParts(host: string, portText: string)
    requires ':' !in host && '/' !in portText
    ensures SplitUrl("ws://" + host + ":" + portText + UrlPath) == Some((host, portText))
  {
    var url := "ws://" + host + ":" + portText + UrlPath;
    assert url[..5] == "ws://";
    var rest := url[5..];
    assert rest == host + [':'] + (portText + UrlPath);
    IndexOfSplit(host, ':', portText + UrlPath);
    assert rest[|host| + 1..] == portText + UrlPath;
    assert rest[..|host|] == host;
    var afterColon := portText + UrlPath;
    assert afterColon == portText + ['/'] + UrlPath[1..];
    IndexOfSplit(portText, '/', UrlPath[1..]);
    assert afterColon[|portText|..] == UrlPath;
    assert afterColon[..|portText|] == portText;
  }

  /** The connection URL determines the host and the port it was built from,
      provided the host holds no ':'. */
  lemma UrlRoundTrip(host: string, port: int)
    requires ':' !in host
    ensures SplitUrl(ConnectionUrl(host, port)) == Some((host, IntToString(port)))
    ensures port >= 0 ==> ParseDecimal(SplitUrl(ConnectionUrl(host, port)).value.1) == port
  {
    SplitUrlParts(host, IntToString(port));
  }

  /** Engine.IO pong, the answer to a ping. */
  const Pong := "3"

  /** Socket.IO CONNECT for a namespace. */
  function NamespaceConnect(namespace: string): string {
    "40" + namespace + ","
  }

  /** Socket.IO EVENT for a namespace carrying a JSON array text. */
  function EventFrame(namespace: string, jsonArray: string): string {
    "42" + namespace + "," + jsonArray
  }

  /** What the clients' `handleMessage` makes of an inbound text frame. */
  datatype Inbound = EngineOpen | EnginePing | NamespaceEvent(json: string) | Unhandled

  /** Tests, in order: starts with "0", starts with "2", starts with "42" and
      the namespace. The event's JSON is everything after the first comma. */
  function Classify(namespace: string, text: string): (r: Inbound)
    ensures r.EngineOpen? <==> |text| > 0 && text[0] == '0'
    ensures r.EnginePing? <==> |text| > 0 && text[0] == '2'
    ensures r.NamespaceEvent? <==> StartsWith(text, "42" + namespace)
    ensures r.NamespaceEvent? ==> r.json == SubstringAfter(text, ',')
  {
    if StartsWith(text, "0") then EngineOpen
    else if StartsWith(text, "2") then EnginePing
    else if StartsWith(text, "42" + namespace) then NamespaceEvent(SubstringAfter(text, ','))
    else Unhandled
  }

  /** An event frame encoded for a namespace is classified by that namespace
      as an event whose JSON is exactly the encoded array text. */
  lemma EventFrameRoundTrip(namespace: string, jsonArray: string)
    requires ',' !in namespace
    ensures Classify(namespace, EventFrame(namespace, jsonArray)) == NamespaceEvent(jsonArray)
  {
    var text := EventFrame(namespace, jsonArray);
    assert text[..2 + |namespace|] == "42" + namespace;
    assert text == ("42" + namespace) + [','] + jsonArray;
    SubstringAfterSplit("42" + namespace, ',', jsonArray);
  }

  /** Our own outbound control packets are never mistaken for inbound events. */
  lemma OutboundControlNotDispatched(namespace: string)
    ensures Classify(namespace, NamespaceConnect(namespace)) == Unhandled
    ensures Classify(namespace, Pong) == Unhandled
  {
    var c := NamespaceConnect(namespace);
    assert c[0] == '4' && c[1] == '0';
  }

  /** The namespace test is a string prefix test: an event addressed to
      namespace `other` is dispatched exactly when `other` starts with the
      client's namespace, so longer namespaces sharing the prefix get through. */
  lemma NamespaceMatchIsPrefix(namespace: string, other: string, rest: string)
    requires ',' !in namespace
    ensures Classify(namespace, EventFrame(other, rest)).NamespaceEvent? <==> StartsWith(other, namespace)
  {
    var text := EventFrame(other, rest);
    var want := "42" + namespace;
    if StartsWith(other, namespace) {
      assert text[..|want|] == want;
    }
    if StartsWith(text, want) {
      assert |namespace| <= |other| by {
        assert text[2 + |other|] == ',';
        assert forall k :: 2 <= k < |want| ==> want[k] == namespace[k - 2];
        assert forall k :: 0 <= k < |want| ==> text[k] == want[k];
      }
      assert other[..|namespace|] == text[2..2 + |namespace|];
    }
  }
}

=== FILE: IosRecognizer.dfy ===
/**
  The iOS speech recognizer's state logic. The platform recognizer delivers
  the whole transcription of the session so far on every result; "clearing"
  therefore does not restart it but records the text shown so far as a
  committed prefix, and later results are displayed with that prefix cut
  off.

  Authorization, the audio session and the audio engine are inputs: each
  operation takes the outcome the platform reported.
 */
module IosRecognizer {
  import opened Wrappers
  import opened Text
  import opened Model

  datatype Recognizer = Recognizer(
    speech: SpeechState,
    committedPrefix: string,
    engineRunning: bool,
    requestActive: bool,
    taskActive: bool)

  /** One result from the platform recognizer. */
  datatype RecognitionResult = RecognitionResult(full: string, isFinal: bool)

  /** The text displayed for the recognizer's full transcription: with the
      committed prefix removed and the remainder trimmed when the full text
      still starts with that prefix, and unchanged otherwise. */
  function DisplayText(full: string, prefix: string): (r: string)
    ensures prefix == [] ==> r == full
    ensures prefix != [] && StartsWith(full, prefix) ==> r == Trim(full[|prefix|..])
    ensures prefix != [] && !StartsWith(full, prefix) ==> r == full
  {
    if prefix != [] && StartsWith(full, prefix) then Trim(full[|prefix|..]) else full
  }

  /** `initializeModel`, given the outcome of the authorization request. */
  function InitializeModel(r: Recognizer, authorized: bool): (r': Recognizer)
    ensures r'.speech.isModelReady == authorized
    ensures r'.speech.error == (if authorized then None else Some("Speech permission denied"))
    ensures r' == r.(speech := r.speech.(isModelReady := r'.speech.isModelReady, error := r'.speech.error))
  {
    r.(speech := r.speech.(isModelReady := authorized, error := if authorized then None else Some("Speech permission denied")))
  }

  /** `startRecording`: cancel any running task, forget the committed prefix,
      set up the audio session and start the engine. */
  function StartRecording(r: Recognizer, sessionOk: bool, engineOk: bool): (r': Recognizer)
    ensures r'.committedPrefix == ""
    ensures !sessionOk ==>
              r' == r.(taskActive := false, committedPrefix := "", speech := r.speech.(error := Some("Audio session setup failed")))
    ensures sessionOk && engineOk ==>
              r' == r.(engineRunning := true, requestActive := true, taskActive := true, committedPrefix := "",
                       speech := r.speech.(isListening := true, error := None))
    ensures sessionOk && !engineOk ==>
              r' == r.(requestActive := true, taskActive := true, committedPrefix := "",
                       speech := r.speech.(error := Some("Audio engine failed to start")))
  {
    var cancelled := r.(taskActive := false, committedPrefix := "");
    if !sessionOk then cancelled.(speech := r.speech.(error := Some("Audio session setup failed")))
    else
      var armed := cancelled.(requestActive := true, taskActive := true);
      if engineOk then armed.(engineRunning := true, speech := r.speech.(isListening := true, error := None))
      else armed.(speech := r.speech.(error := Some("Audio engine failed to start")))
  }

  /** `startListening`: refused while the model is not ready; otherwise the
      authorization check runs and then recording starts. */
  function StartListening(r: Recognizer, authorized: bool, sessionOk: bool, engineOk: bool): (r': Recognizer)
    ensures !r.speech.isModelReady ==> r' == r.(speech := r.speech.(error := Some("Model (Permission) not ready")))
    ensures r.speech.isModelReady && !authorized ==> r' == r.(speech := r.speech.(error := Some("Not authorized")))
    ensures r.speech.isModelReady && authorized ==> r' == StartRecording(r, sessionOk, engineOk)
  {
    if !r.speech.isModelReady then r.(speech := r.speech.(error := Some("Model (Permission) not ready")))
    else if !authorized then r.(speech := r.speech.(error := Some("Not authorized")))
    else StartRecording(r, sessionOk, engineOk)
  }

  /** The recognition task's callback, with an optional result and an
      optional error description. A result updates the display and sets
      `isListening` to "not final"; a final result or an error then stops
      the engine and clears `isListening`, and an error is recorded. */
  function OnRecognition(r: Recognizer, result: Option<RecognitionResult>, error: Option<string>): (r': Recognizer)
    ensures result.Some? ==> r'.speech.transcription == DisplayText(result.value.full, r.committedPrefix)
    ensures result.None? ==> r'.speech.transcription == r.speech.transcription
    ensures r'.committedPrefix == r.committedPrefix
    ensures var ends := error.Some? || (result.Some? && result.value.isFinal);
            && (ends ==> !r'.engineRunning && !r'.taskActive && !r'.speech.isListening)
            && (!ends ==> r'.engineRunning == r.engineRunning
                          && r'.speech.isListening == (if result.Some? then true else r.speech.isListening))
    ensures r'.speech.error == (if error.Some? then error else r.speech.error)
    ensures r'.speech == r.speech.(transcription := r'.speech.transcription, isListening := r'.speech.isListening,
                                   error := r'.speech.error)
    ensures var ends := error.Some? || (result.Some? && result.value.isFinal);
            && (ends ==> r' == r.(engineRunning := false, requestActive := false, taskActive := false, speech := r'.speech))
            && (!ends ==> r' == r.(speech := r'.speech))
  {
    var isFinal := result.Some? && result.value.isFinal;
    var shown := if result.Some? then
        r.(speech := r.speech.(transcription := DisplayText(result.value.full, r.committedPrefix), isListening := !isFinal))
      else r;
    if error.Some? || isFinal then
      shown.(engineRunning := false, requestActive := false, taskActive := false,
             speech := shown.speech.(isListening := false, error := if error.Some? then error else shown.speech.error))
    else shown
  }

  /** `stopListening`: only a running engine is stopped, which also blanks
      the display. */
  function StopListening(r: Recognizer): (r': Recognizer)
    ensures r.engineRunning ==> r' == r.(engineRunning := false, speech := r.speech.(isListening := false, transcription := ""))
    ensures !r.engineRunning ==> r' == r
  {
    if r.engineRunning then r.(engineRunning := false, speech := r.speech.(isListening := false, transcription := ""))
    else r
  }

  /** `clearTranscription`: the displayed text joins the committed prefix
      (space-separated, then trimmed) and the display is blanked. */
  function ClearTranscription(r: Recognizer): (r': Recognizer)
    ensures r'.speech == r.speech.(transcription := "")
    ensures r.speech.transcription == [] ==> r'.committedPrefix == r.committedPrefix
    ensures r.speech.transcription != [] ==>
              r'.committedPrefix == Trim(r.committedPrefix + (if r.committedPrefix != [] then " " else "") + r.speech.transcription)
    ensures r' == r.(committedPrefix := r'.committedPrefix, speech := r'.speech)
  {
    var shown := r.speech.transcription;
    var prefix := if shown != [] then
        Trim(r.committedPrefix + (if r.committedPrefix != [] then " " else "") + shown)
      else r.committedPrefix;
    r.(committedPrefix := prefix, speech := r.speech.(transcription := ""))
  }

  /** Joining two trimmed texts, the second non-empty, with the separator
      `clearTranscription` uses gives a text that trimming leaves alone. */
  lemma JoinIsTrimmed(p: string, d: string)
    requires Trimmed(p) && Trimmed(d) && d != []
    ensures var joined := p + (if p != [] then " " else "") + d;
            Trim(joined) == joined && StartsWith(joined, p)
  {
    var joined := p + (if p != [] then " " else "") + d;
    assert Trimmed(joined) by {
      if p != [] {
        assert joined[0] == p[0];
      } else {
        assert joined == d;
      }
      assert joined[|joined| - 1] == d[|d| - 1];
    }
    assert joined == [] + joined + [];
    TrimOfPadded([], joined, []);
    assert joined[..|p|] == p;
  }

  /** Clearing only ever extends a (trimmed) committed prefix by the trimmed
      text that was on display, one space apart. */
  lemma ClearExtendsPrefix(r: Recognizer)
    requires Trimmed(r.committedPrefix) && Trimmed(r.speech.transcription)
    ensures StartsWith(ClearTranscription(r).committedPrefix, r.committedPrefix)
    ensures r.speech.transcription != [] && r.committedPrefix != [] ==>
              ClearTranscription(r).committedPrefix == r.committedPrefix + " " + r.speech.transcription
    ensures r.speech.transcription != [] && r.committedPrefix == [] ==>
              ClearTranscription(r).committedPrefix == r.speech.transcription
  {
    var p, d := r.committedPrefix, r.speech.transcription;
    var c := ClearTranscription(r).committedPrefix;
    if d != [] {
      var joined := p + (if p != [] then " " else "") + d;
      assert c == Trim(joined);
      JoinIsTrimmed(p, d);
    } else {
      assert c == p;
      assert c[..|p|] == p;
    }
  }

  /** Committing a text that does not start with whitespace leaves a
      non-empty prefix of it, followed only by whitespace. */
  lemma CommitWholeText(full: string)
    requires full != [] && !IsWhitespace(full[0])
    ensures Trim(full) != [] && StartsWith(full, Trim(full))
    ensures DisplayText(full, Trim(full)) == ""
  {
    var e := TrimEnd(full);
    assert TrimStart(full) == full;
    assert AllWhitespace(full[|e|..]);
    var rest := full[|e|..];
    assert rest == rest + [] + [];
    TrimOfPadded(rest, [], []);
  }

  /** After the first clear of a session, the same transcription delivered
      again is displayed as empty: the committed prefix is then the full
      text. (The full text must not start with whitespace.) */
  lemma FirstClearHidesText(r: Recognizer, full: string)
    requires r.committedPrefix == []
    requires full != [] && !IsWhitespace(full[0])
    ensures var cleared := ClearTranscription(OnRecognition(r, Some(RecognitionResult(full, false)), None));
            && cleared.committedPrefix == Trim(full)
            && OnRecognition(cleared, Some(RecognitionResult(full, false)), None).speech.transcription == ""
  {
    var shown := OnRecognition(r, Some(RecognitionResult(full, false)), None);
    assert shown.speech.transcription == full;
    assert "" + "" + full == full;
    CommitWholeText(full);
  }

  /** Display of a full text that extends the committed text by one space,
      the new text and trailing whitespace. */
  lemma DisplayAfterSpace(p: string, shownText: string, trailing: string)
    requires p != [] && Trimmed(shownText) && AllWhitespace(trailing)
    ensures DisplayText(p + " " + shownText + trailing, p) == shownText
  {
    var full := p + " " + shownText + trailing;
    assert full[..|p|] == p;
    assert full[|p|..] == " " + shownText + trailing;
    assert AllWhitespace(" ");
    TrimOfPadded(" ", shownText, trailing);
  }

  /** A full text that is the committed text plus whitespace displays as empty. */
  lemma DisplayOfCommitted(p: string, trailing: string)
    requires p != [] && AllWhitespace(trailing)
    ensures DisplayText(p + trailing, p) == ""
  {
    var full := p + trailing;
    assert full[..|p|] == p;
    assert full[|p|..] == trailing;
    assert trailing == trailing + [] + [];
    TrimOfPadded(trailing, [], []);
  }

  /** The same holds for every later clear, as long as the recognizer keeps
      separating the new text from the committed text by exactly one space. */
  lemma LaterClearHidesText(r: Recognizer, full: string, shownText: string, trailing: string)
    requires r.committedPrefix != [] && Trimmed(r.committedPrefix)
    requires shownText != [] && Trimmed(shownText) && AllWhitespace(trailing)
    requires full == r.committedPrefix + " " + shownText + trailing
    ensures OnRecognition(r, Some(RecognitionResult(full, false)), None).speech.transcription == shownText
    ensures ClearTranscription(OnRecognition(r, Some(RecognitionResult(full, false)), None)).committedPrefix
              == r.committedPrefix + " " + shownText
    ensures var cleared := ClearTranscription(OnRecognition(r, Some(RecognitionResult(full, false)), None));
            OnRecognition(cleared, Some(RecognitionResult(full, false)), None).speech.transcription == ""
  {
    var p := r.committedPrefix;
    DisplayAfterSpace(p, shownText, trailing);
    var shown := OnRecognition(r, Some(RecognitionResult(full, false)), None);
    ClearExtendsPrefix(shown);
    var p' := p + " " + shownText;
    assert full == p' + trailing;
    DisplayOfCommitted(p', trailing);
  }

  /** When the recognizer separates new text by two spaces, the text cleared
      earlier reappears: "a  b" displayed after committing "a" shows "b",
      and after clearing that, "a  b" no longer starts with "a b". */
  lemma DoubleSpaceShowsClearedText(r: Recognizer)
    requires r.committedPrefix == "a"
    ensures var full := "a  b";
            var shown := OnRecognition(r, Some(RecognitionResult(full, false)), None);
            var cleared := ClearTranscription(shown);
            && shown.speech.transcription == "b"
            && cleared.committedPrefix == "a b"
            && OnRecognition(cleared, Some(RecognitionResult(full, false)), None).speech.transcription == full
  {
    var full := "a  b";
    assert full[..1] == "a";
    assert full[1..] == "  " + "b" + "";
    TrimOfPadded("  ", "b", "");
    var shown := OnRecognition(r, Some(RecognitionResult(full, false)), None);
    assert shown.speech.transcription == "b";
    ClearExtendsPrefix(shown);
    assert full[..3] != "a b" by {
      assert full[2] == ' ' && "a b"[2] == 'b';
    }
  }

  /** A final result stops everything, so a later `stopListening` changes
      nothing. */
  lemma FinalResultEndsSession(r: Recognizer, full: string)
    ensures var done := OnRecognition(r, Some(RecognitionResult(full, true)), None);
            && !done.speech.isListening && !done.engineRunning
            && StopListening(done) == done
  {
  }
}

=== FILE: Json.dfy ===
/**
  An abstract JSON tree and the kotlinx.serialization accessors the socket
  clients use on it. Parsing itself is not modelled: each client takes the
  parser as a partial function from text to `Option<JsonValue>`.
  Accessors that throw in Kotlin (`jsonPrimitive` on an object, `jsonArray`
  on a string, ...) return `None` here.
 */
module Json {
  import opened Wrappers

  datatype JsonValue =
    | JNull
    | JBool(b: bool)
    | JNumber(literal: string)
    | JString(s: string)
    | JArray(items: seq<JsonValue>)
    | JObject(fields: map<string, JsonValue>)

  /** `.jsonPrimitive.content`: the text of a primitive (a JSON null reads as
      "null"), and a failure for arrays and objects. */
  function Content(v: JsonValue): (r: Option<string>)
    ensures r.None? <==> v.JArray? || v.JObject?
    ensures v.JString? ==> r == Some(v.s)
    ensures v.JNull? ==> r == Some("null")
  {
    match v
    case JNull => Some("null")
    case JBool(b) => Some(if b then "true" else "false")
    case JNumber(lit) => Some(lit)
    case JString(s) => Some(s)
    case JArray(_) => None
    case JObject(_) => None
  }

  /** Reading `obj?.get(key)?.jsonPrimitive?.content` has three outcomes. */
  datatype FieldRead = Missing | Text(value: string) | Fails {
    /** The `?: default` of the read, for reads that did not fail. */
    function OrElse(default: string): string
      requires !Fails?
    {
      if Text? then value else default
    }
  }

  /** `payload?.get(key)?.jsonPrimitive?.content`, where `payload` may be absent. */
  function ReadField(payload: Option<map<string, JsonValue>>, key: string): (r: FieldRead)
    ensures r.Missing? <==> payload.None? || key !in payload.value
    ensures r.Fails? <==> payload.Some? && key in payload.value && Content(payload.value[key]).None?
    ensures r.Text? ==> Content(payload.value[key]) == Some(r.value)
  {
    match payload
    case None => Missing
    case Some(fields) =>
      if key !in fields then Missing
      else
        match Content(fields[key])
        case None => Fails
        case Some(s) => Text(s)
  }
}

=== FILE: Model.dfy ===
/** The application's records: answers, provider configuration, and the
    speech recognizer's published state. */
module Model {
  import opened Wrappers

  /** One AI answer delivered over the data-updates socket. */
  datatype Answer = Answer(id: string, question: string, answer: string, timestamp: int, kind: string)

  /** The provider configuration: API keys by provider, display order, and the
      enabled providers. */
  datatype ApiConfig = ApiConfig(keys: map<string, string>, order: seq<string>, enabled: seq<string>)

  /** The configuration server's reply. */
  datatype ConfigResponse = ConfigResponse(success: bool, config: Option<ApiConfig>, message: Option<string>, error: Option<string>)

  /** The published state of a speech recognizer. `audioLevel` is a float in the
      application; no modelled component changes it. */
  datatype SpeechState = SpeechState(
    transcription: string,
    isListening: bool,
    error: Option<string>,
    isDownloading: bool,
    isModelReady: bool,
    statusMessage: Option<string>,
    audioLevel: real)

  /** The state a recognizer starts with. */
  const InitialSpeechState := SpeechState("", false, None, false, false, None, 0.0)
}

=== FILE: ProviderSettings.dfy ===
/**
  The provider settings sheet: an editable copy of the provider
  configuration (display order, API keys, enabled flags) with move-up and
  move-down controls, and the configuration it hands back on save.
 */
module ProviderSettings {
  import opened Wrappers
  import opened Text
  import opened Model

  /** The order shown when the configuration names none. */
  const DefaultOrder := ["openai", "grok", "gemini"]

  function InitialOrder(c: ApiConfig): (r: seq<string>)
    ensures r != []
    ensures c.order != [] ==> r == c.order
    ensures c.order == [] ==> r == DefaultOrder
  {
    if c.order != [] then c.order else DefaultOrder
  }

  /** The sheet's local state. */
  datatype Editor = Editor(providers: seq<string>, keys: map<string, string>, enabled: map<string, bool>)

  /** A provider counts as enabled only when its flag is present and true. */
  predicate IsEnabled(e: Editor, p: string) {
    p in e.enabled && e.enabled[p]
  }

  /** The key shown for a provider; "" when it has none. */
  function CurrentKey(e: Editor, p: string): string {
    if p in e.keys then e.keys[p] else ""
  }

  /** One `true` flag per listed provider. */
  function EnabledFlags(names: seq<string>): (r: map<string, bool>)
    ensures forall p :: p in r <==> p in names
    ensures forall p :: p in r ==> r[p]
  {
    map p | p in names :: true
  }

  /** Opening the sheet on a configuration. */
  function Open(c: ApiConfig): (e: Editor)
    ensures e.providers == InitialOrder(c)
    ensures e.keys == c.keys
    ensures forall p :: IsEnabled(e, p) <==> p in c.enabled
  {
    Editor(InitialOrder(c), c.keys, EnabledFlags(c.enabled))
  }

  /** `removeAt(i)`. */
  function RemoveAt<T>(s: seq<T>, i: nat): (r: seq<T>)
    requires i < |s|
    ensures |r| == |s| - 1
    ensures forall k :: 0 <= k < i ==> r[k] == s[k]
    ensures forall k :: i <= k < |r| ==> r[k] == s[k + 1]
  {
    s[..i] + s[i + 1..]
  }

  /** `add(i, x)`. */
  function InsertAt<T>(s: seq<T>, i: nat, x: T): (r: seq<T>)
    requires i <= |s|
    ensures |r| == |s| + 1 && r[i] == x
    ensures forall k :: 0 <= k < i ==> r[k] == s[k]
    ensures forall k :: i < k < |r| ==> r[k] == s[k - 1]
  {
    s[..i] + [x] + s[i..]
  }

  /** The up arrow of row `i`, which exists for every row but the first. */
  function MoveUp<T>(s: seq<T>, i: nat): seq<T> {
    if 0 < i < |s| then InsertAt(RemoveAt(s, i), i - 1, s[i]) else s
  }

  /** The down arrow of row `i`, which exists for every row but the last. */
  function MoveDown<T>(s: seq<T>, i: nat): seq<T> {
    if i + 1 < |s| then InsertAt(RemoveAt(s, i), i + 1, s[i]) else s
  }

  /** Moving a row up swaps it with the row above and touches nothing else. */
  lemma MoveUpSwaps<T>(s: seq<T>, i: nat)
    requires 0 < i < |s|
    ensures MoveUp(s, i) == s[..i - 1] + [s[i], s[i - 1]] + s[i + 1..]
  {
    var t := RemoveAt(s, i);
    assert t == s[..i] + s[i + 1..];
    assert t[..i - 1] == s[..i - 1];
    assert t[i - 1..] == [s[i - 1]] + s[i + 1..];
    assert InsertAt(t, i - 1, s[i]) == t[..i - 1] + [s[i]] + t[i - 1..];
  }

  /** Moving a row down swaps it with the row below and touches nothing else. */
  lemma MoveDownSwaps<T>(s: seq<T>, i: nat)
    requires i + 1 < |s|
    ensures MoveDown(s, i) == s[..i] + [s[i + 1], s[i]] + s[i + 2..]
  {
    var t := RemoveAt(s, i);
    assert t == s[..i] + s[i + 1..];
    assert t[..i + 1] == s[..i] + [s[i + 1]];
    assert t[i + 1..] == s[i + 2..];
    assert InsertAt(t, i + 1, s[i]) == t[..i + 1] + [s[i]] + t[i + 1..];
  }

  /** Moving a row up and then moving it back down restores the order, and
      so does the reverse. */
  lemma MoveUpThenDown<T>(s: seq<T>, i: nat)
    requires 0 < i < |s|
    ensures MoveDown(MoveUp(s, i), i - 1) == s
    ensures MoveUp(MoveDown(s, i - 1), i) == s
  {
    MoveUpSwaps(s, i);
    var u := MoveUp(s, i);
    MoveDownSwaps(u, i - 1);
    assert u[..i - 1] == s[..i - 1];
    assert u[i + 1..] == s[i + 1..];
    assert MoveDown(u, i - 1) == s[..i - 1] + [s[i - 1], s[i]] + s[i + 1..];
    assert s == s[..i - 1] + [s[i - 1], s[i]] + s[i + 1..];
    MoveDownSwaps(s, i - 1);
    var d := MoveDown(s, i - 1);
    MoveUpSwaps(d, i);
    assert d[..i - 1] == s[..i - 1];
    assert d[i + 1..] == s[i + 1..];
  }

  lemma SwapPermutes<T>(a: seq<T>, x: T, y: T, b: seq<T>)
    ensures multiset(a + [x, y] + b) == multiset(a + [y, x] + b)
  {
    assert multiset([x, y]) == multiset([y, x]);
    assert a + [x, y] + b == a + ([x, y] + b);
    assert a + [y, x] + b == a + ([y, x] + b);
  }

  lemma MoveUpPermutes<T>(s: seq<T>, i: nat)
    ensures multiset(MoveUp(s, i)) == multiset(s)
  {
    if 0 < i < |s| {
      var a, x, y, b := s[..i - 1], s[i - 1], s[i], s[i + 1..];
      MoveUpSwaps(s, i);
      assert s == a + [x, y] + b;
      SwapPermutes(a, y, x, b);
    }
  }

  lemma MoveDownPermutes<T>(s: seq<T>, i: nat)
    ensures multiset(MoveDown(s, i)) == multiset(s)
  {
    if i + 1 < |s| {
      var a, x, y, b := s[..i], s[i], s[i + 1], s[i + 2..];
      MoveDownSwaps(s, i);
      assert s == a + [x, y] + b;
      SwapPermutes(a, y, x, b);
    }
  }

  /** One user action on the sheet. */
  datatype Edit =
    | ChangeKey(provider: string, key: string)
    | ChangeEnabled(provider: string, on: bool)
    | Up(index: nat)
    | Down(index: nat)

  function ApplyEdit(e: Editor, ed: Edit): Editor {
    match ed
    case ChangeKey(p, k) => e.(keys := e.keys[p := k])
    case ChangeEnabled(p, b) => e.(enabled := e.enabled[p := b])
    case Up(i) => e.(providers := MoveUp(e.providers, i))
    case Down(i) => e.(providers := MoveDown(e.providers, i))
  }

  function ApplyEdits(e: Editor, eds: seq<Edit>): Editor
    decreases |eds|
  {
    if eds == [] then e else ApplyEdits(ApplyEdit(e, eds[0]), eds[1..])
  }

  /** The providers whose enabled flag is true, in display order. */
  function EnabledInOrder(e: Editor, ps: seq<string>): (r: seq<string>)
    ensures |r| <= |ps|
    ensures forall p :: p in r <==> p in ps && IsEnabled(e, p)
  {
    if ps == [] then []
    else (if IsEnabled(e, ps[0]) then [ps[0]] else []) + EnabledInOrder(e, ps[1..])
  }

  /** Filtering commutes with concatenation, so the enabled list keeps the
      display order. */
  lemma {:induction false} EnabledInOrderAppend(e: Editor, a: seq<string>, b: seq<string>)
    ensures EnabledInOrder(e, a + b) == EnabledInOrder(e, a) + EnabledInOrder(e, b)
    decreases |a|
  {
    if a == [] {
      assert a + b == b;
    } else {
      assert (a + b)[1..] == a[1..] + b;
      EnabledInOrderAppend(e, a[1..], b);
    }
  }

  /** `a` can be obtained from `b` by deleting elements. */
  predicate IsSubsequence<T(==)>(a: seq<T>, b: seq<T>)
    decreases |b|
  {
    if b == [] then a == []
    else (a != [] && a[0] == b[0] && IsSubsequence(a[1..], b[1..])) || IsSubsequence(a, b[1..])
  }

  /** The enabled providers are picked out of the list without reordering. */
  lemma {:induction false} EnabledInOrderIsSubsequence(e: Editor, ps: seq<string>)
    ensures IsSubsequence(EnabledInOrder(e, ps), ps)
    decreases |ps|
  {
    if ps != [] {
      EnabledInOrderIsSubsequence(e, ps[1..]);
      var rest := EnabledInOrder(e, ps[1..]);
      if IsEnabled(e, ps[0]) {
        assert EnabledInOrder(e, ps) == [ps[0]] + rest;
        assert ([ps[0]] + rest)[1..] == rest;
      } else {
        assert EnabledInOrder(e, ps) == rest;
      }
    }
  }

  /** The filter keeps every copy of an enabled provider and no copy of a
      disabled one. */
  lemma {:induction false} EnabledInOrderCounts(e: Editor, ps: seq<string>, p: string)
    ensures multiset(EnabledInOrder(e, ps))[p] == (if IsEnabled(e, p) then multiset(ps)[p] else 0)
    decreases |ps|
  {
    if ps != [] {
      EnabledInOrderCounts(e, ps[1..], p);
      assert ps == [ps[0]] + ps[1..];
      var head := if IsEnabled(e, ps[0]) then [ps[0]] else [];
      assert EnabledInOrder(e, ps) == head + EnabledInOrder(e, ps[1..]);
    }
  }

  /** The save button: all keys as edited, the order as shown, and the
      enabled providers in that order. */
  function Save(e: Editor): (c: ApiConfig)
    ensures c.keys == e.keys && c.order == e.providers
    ensures forall p :: p in c.enabled <==> p in e.providers && IsEnabled(e, p)
    ensures IsSubsequence(c.enabled, c.order)
    ensures forall p :: multiset(c.enabled)[p] == (if IsEnabled(e, p) then multiset(c.order)[p] else 0)
  {
    EnabledInOrderIsSubsequence(e, e.providers);
    forall p {
      EnabledInOrderCounts(e, e.providers, p);
    }
    ApiConfig(e.keys, e.providers, EnabledInOrder(e, e.providers))
  }

  /** Reopening the sheet on what it saved shows the same rows in the same
      order with the same keys; a provider is still enabled exactly when it
      was enabled and listed. */
  lemma ReopenAfterSave(e: Editor)
    requires e.providers != []
    ensures Open(Save(e)).providers == e.providers
    ensures Open(Save(e)).keys == e.keys
    ensures forall p :: IsEnabled(Open(Save(e)), p) <==> p in e.providers && IsEnabled(e, p)
  {
  }

  /** Saving without edits returns the keys and order opened with, and an
      enabled list holding exactly the enabled providers that are listed. */
  lemma SaveUnedited(c: ApiConfig)
    ensures Save(Open(c)).keys == c.keys
    ensures Save(Open(c)).order == InitialOrder(c)
    ensures forall p :: p in Save(Open(c)).enabled <==> p in InitialOrder(c) && p in c.enabled
  {
  }

  /** Any sequence of edits keeps the same providers; only their order
      changes. */
  lemma {:induction false} EditsPermuteProviders(e: Editor, eds: seq<Edit>)
    ensures multiset(ApplyEdits(e, eds).providers) == multiset(e.providers)
    decreases |eds|
  {
    if eds != [] {
      if eds[0].Up? {
        MoveUpPermutes(e.providers, eds[0].index);
      } else if eds[0].Down? {
        MoveDownPermutes(e.providers, eds[0].index);
      }
      EditsPermuteProviders(ApplyEdit(e, eds[0]), eds[1..]);
    }
  }

  /** A key edit names its provider. */
  predicate EditsKey(ed: Edit, p: string) {
    ed.ChangeKey? && ed.provider == p
  }

  /** Edits leave the key of every provider whose key they do not edit. */
  lemma {:induction false} EditsKeepOtherKeys(e: Editor, eds: seq<Edit>, p: string)
    requires forall j :: 0 <= j < |eds| ==> !EditsKey(eds[j], p)
    ensures CurrentKey(ApplyEdits(e, eds), p) == CurrentKey(e, p)
    decreases |eds|
  {
    if eds != [] {
      assert !EditsKey(eds[0], p);
      assert forall j :: 0 <= j < |eds[1..]| ==> eds[1..][j] == eds[j + 1];
      EditsKeepOtherKeys(ApplyEdit(e, eds[0]), eds[1..], p);
    }
  }

  /** The key field of an enabled provider. */
  datatype KeyField = KeyField(value: string, caption: string, placeholder: string)

  /** A key the server reports as configured arrives masked as "***". */
  const MaskedKey := "***"

  /** The key field is shown only for enabled providers; its placeholder tells
      a masked key apart from a missing one. */
  function KeyFieldOf(e: Editor, p: string): (r: Option<KeyField>)
    ensures r.Some? <==> IsEnabled(e, p)
    ensures r.Some? ==> r.value.value == CurrentKey(e, p) && r.value.caption == p + " API Key"
    ensures r.Some? ==> (r.value.placeholder == "Key Configured" <==> CurrentKey(e, p) == MaskedKey)
    ensures r.Some? ==> (r.value.placeholder == "Enter API Key" <==> CurrentKey(e, p) != MaskedKey)
  {
    if IsEnabled(e, p) then
      Some(KeyField(CurrentKey(e, p), p + " API Key",
                    if CurrentKey(e, p) == MaskedKey then "Key Configured" else "Enter API Key"))
    else None
  }
}

=== FILE: SherpaManager.dfy ===
/**
  The Android speech manager built on an on-device streaming recognizer.
  `startListening` acquires the microphone and a recognizer stream and
  launches a capture loop; each loop iteration feeds one buffer to the
  recognizer and publishes the result; the loop's `finally` block releases
  both resources.

  The recognizer is abstracted as the sequence of results the loop reads,
  and the microphone and stream as flags plus a log of the calls made on
  them, so that releases can be counted.
 */
module SherpaManager {
  import opened Wrappers
  import opened Model

  /** Calls made on the recognizer stream and the audio recorder. */
  datatype ResourceCall =
    | CreateStream | ReleaseStream | ResetStream
    | OpenRecorder | StartRecorder | StopRecorder | ReleaseRecorder

  datatype Manager = Manager(
    speech: SpeechState,
    recognizerLoaded: bool,
    isRecording: bool,
    streamHeld: bool,
    recorderHeld: bool,
    loopRunning: bool,
    lastFinalText: string,
    sampleCapacity: nat,
    calls: seq<ResourceCall>)

  /** How loading the recognizer model went. */
  datatype InitOutcome = Loaded | InitFails(message: Option<string>)

  /** `initModel`: on success the recognizer exists; on failure the error is
      published. Nothing here ever sets `isModelReady`. */
  function InitModel(m: Manager, outcome: InitOutcome): (m': Manager)
    ensures outcome.Loaded? ==> m'.recognizerLoaded && m' == m.(recognizerLoaded := m'.recognizerLoaded)
    ensures outcome.InitFails? ==>
              m' == m.(speech := m.speech.(error := Some("Sherpa Init Error: " + outcome.message.GetOr("null"))))
    ensures m'.speech.isModelReady == m.speech.isModelReady
  {
    match outcome
    case Loaded => m.(recognizerLoaded := true)
    case InitFails(msg) => m.(speech := m.speech.(error := Some("Sherpa Init Error: " + msg.GetOr("null"))))
  }

  const NotLoadedError := "Sherpa model not loaded yet."

  /** The recorder buffer size in bytes: the device minimum, but never less
      than 4096 (the device reports errors as negative sizes). */
  function BufferBytes(minBufferSize: int): (r: int)
    ensures r >= 4096 && r >= minBufferSize
    ensures r == 4096 || r == minBufferSize
  {
    if minBufferSize > 4096 then minBufferSize else 4096
  }

  /** 16-bit samples that fit in the buffer. */
  function SampleCapacity(minBufferSize: int): (n: nat)
    ensures n >= 2048
    ensures 2 * n <= BufferBytes(minBufferSize) < 2 * n + 2
  {
    BufferBytes(minBufferSize) / 2
  }

  /** How acquiring the microphone and the stream went. */
  datatype MicOutcome =
    | Started
    | ConstructFails(message: Option<string>)
    | StartRecordingFails(message: Option<string>)
    | CreateStreamFails(message: Option<string>)

  /** The error text for a failed start; a missing exception message prints
      as "null". */
  function MicError(message: Option<string>): string {
    "Mic Error: " + message.GetOr("null")
  }

  function StreamRelease(m: Manager): seq<ResourceCall> {
    if m.streamHeld then [ReleaseStream] else []
  }

  /** `startListening`, for a device minimum buffer size and an acquisition
      outcome. */
  function StartListening(m: Manager, minBufferSize: int, outcome: MicOutcome): (m': Manager)
    ensures !m.recognizerLoaded ==> m' == m.(speech := m.speech.(error := Some(NotLoadedError)))
    ensures m.recognizerLoaded && m.isRecording ==> m' == m
    ensures m.recognizerLoaded && !m.isRecording && outcome.Started? ==>
              && m'.isRecording && m'.loopRunning && m'.streamHeld && m'.recorderHeld
              && m'.speech == m.speech.(isListening := true, error := None)
              && m'.sampleCapacity == SampleCapacity(minBufferSize)
              && m'.calls == m.calls + [OpenRecorder, StartRecorder] + StreamRelease(m) + [CreateStream]
              && m'.lastFinalText == m.lastFinalText
              && m' == m.(recorderHeld := m'.recorderHeld, streamHeld := m'.streamHeld, loopRunning := m'.loopRunning,
                          isRecording := m'.isRecording, sampleCapacity := m'.sampleCapacity, calls := m'.calls,
                          speech := m'.speech)
    ensures m.recognizerLoaded && !m.isRecording && !outcome.Started? ==>
              && !m'.isRecording && m'.loopRunning == m.loopRunning
              && m'.speech.error == Some(MicError(outcome.message))
              && m'.recognizerLoaded == m.recognizerLoaded && m'.lastFinalText == m.lastFinalText
              && m'.sampleCapacity == m.sampleCapacity
    ensures m.recognizerLoaded && !m.isRecording && outcome.CreateStreamFails? ==>
              m'.speech == m.speech.(isListening := true, error := Some(MicError(outcome.message)))
    ensures m.recognizerLoaded && !m.isRecording && (outcome.ConstructFails? || outcome.StartRecordingFails?) ==>
              m'.speech == m.speech.(error := Some(MicError(outcome.message)))
    ensures m.recognizerLoaded && !m.isRecording && outcome.ConstructFails? ==>
              m' == m.(speech := m'.speech)
    ensures m.recognizerLoaded && !m.isRecording && outcome.StartRecordingFails? ==>
              m'.recorderHeld && m'.streamHeld == m.streamHeld && m'.calls == m.calls + [OpenRecorder]
    ensures m.recognizerLoaded && !m.isRecording && outcome.CreateStreamFails? ==>
              m'.recorderHeld && !m'.streamHeld && m'.calls == m.calls + [OpenRecorder, StartRecorder] + StreamRelease(m)
  {
    if !m.recognizerLoaded then m.(speech := m.speech.(error := Some(NotLoadedError)))
    else if m.isRecording then m
    else
      match outcome
      case ConstructFails(msg) =>
        m.(isRecording := false, speech := m.speech.(error := Some(MicError(msg))))
      case StartRecordingFails(msg) =>
        m.(recorderHeld := true, calls := m.calls + [OpenRecorder],
           isRecording := false, speech := m.speech.(error := Some(MicError(msg))))
      case CreateStreamFails(msg) =>
        m.(recorderHeld := true, streamHeld := false,
           calls := m.calls + [OpenRecorder, StartRecorder] + StreamRelease(m),
           isRecording := false, speech := m.speech.(isListening := true, error := Some(MicError(msg))))
      case Started =>
        m.(recorderHeld := true, streamHeld := true, loopRunning := true, isRecording := true,
           sampleCapacity := SampleCapacity(minBufferSize),
           calls := m.calls + [OpenRecorder, StartRecorder] + StreamRelease(m) + [CreateStream],
           speech := m.speech.(isListening := true, error := None))
  }

  /** One recognizer result: its text and whether the recognizer reports an
      endpoint. */
  datatype Decoded = Decoded(text: string, isEndpoint: bool)

  /** One loop iteration: no samples read, or samples read and the
      recognizer's result (if it returned one). */
  datatype Chunk = NoSamples | Samples(result: Option<Decoded>)

  /** The per-result rule. Empty text changes nothing. An endpoint first
      appends the text to `lastFinalText` and resets the stream; the
      published transcription is then `lastFinalText + text` either way. */
  function ApplyResult(m: Manager, d: Decoded): (m': Manager)
    ensures d.text == [] ==> m' == m
    ensures d.text != [] && !d.isEndpoint ==>
              m' == m.(speech := m.speech.(transcription := m.lastFinalText + d.text))
    ensures d.text != [] && d.isEndpoint ==>
              && m'.lastFinalText == m.lastFinalText + d.text
              && m'.calls == m.calls + [ResetStream]
              && m'.speech == m.speech.(transcription := m'.lastFinalText + d.text)
    ensures SameOutsideText(m, m')
  {
    if d.text == [] then m
    else if d.isEndpoint then
      var lf := m.lastFinalText + d.text;
      m.(lastFinalText := lf, calls := m.calls + [ResetStream], speech := m.speech.(transcription := lf + d.text))
    else m.(speech := m.speech.(transcription := m.lastFinalText + d.text))
  }

  /** At an endpoint the new text is published twice: once inside the
      updated `lastFinalText` and once more after it. */
  lemma EndpointRepeatsText(m: Manager, text: string)
    requires m.lastFinalText == [] && text != []
    ensures ApplyResult(m, Decoded(text, true)).speech.transcription == text + text
  {
  }

  function Step(m: Manager, c: Chunk): Manager {
    match c
    case NoSamples => m
    case Samples(None) => m
    case Samples(Some(d)) => ApplyResult(m, d)
  }

  /** The loop body over the chunks read before the loop ends. */
  function Feed(m: Manager, chunks: seq<Chunk>): Manager
    decreases |chunks|
  {
    if chunks == [] then m else Feed(Step(m, chunks[0]), chunks[1..])
  }

  /** What a chunk adds to `lastFinalText`: the text of an endpoint result. */
  function Committed(c: Chunk): string {
    if c.Samples? && c.result.Some? && c.result.value.isEndpoint then c.result.value.text else ""
  }

  /** Whether a chunk resets the stream. */
  function Resets(c: Chunk): nat {
    if c.Samples? && c.result.Some? && c.result.value.isEndpoint && c.result.value.text != [] then 1 else 0
  }

  function CommittedText(chunks: seq<Chunk>): string {
    if chunks == [] then "" else Committed(chunks[0]) + CommittedText(chunks[1..])
  }

  function ResetCount(chunks: seq<Chunk>): nat {
    if chunks == [] then 0 else Resets(chunks[0]) + ResetCount(chunks[1..])
  }

  /** Over any run of the loop, `lastFinalText` grows by exactly the endpoint
      texts, in order: it is never cleared. */
  lemma {:induction false} FeedAccumulates(m: Manager, chunks: seq<Chunk>)
    ensures Feed(m, chunks).lastFinalText == m.lastFinalText + CommittedText(chunks)
    decreases |chunks|
  {
    if chunks != [] {
      var m1 := Step(m, chunks[0]);
      FeedAccumulates(m1, chunks[1..]);
      assert m1.lastFinalText == m.lastFinalText + Committed(chunks[0]);
      assert CommittedText(chunks) == Committed(chunks[0]) + CommittedText(chunks[1..]);
    }
  }

  /** Every call in the log from position `from` on is a stream reset. */
  predicate OnlyResetsFrom(calls: seq<ResourceCall>, from: nat) {
    from <= |calls| && forall i :: from <= i < |calls| ==> calls[i] == ResetStream
  }

  /** The loop's only resource calls are one stream reset per non-empty
      endpoint result. */
  lemma {:induction false} FeedOnlyResets(m: Manager, chunks: seq<Chunk>)
    ensures |Feed(m, chunks).calls| == |m.calls| + ResetCount(chunks)
    ensures Feed(m, chunks).calls[..|m.calls|] == m.calls
    ensures OnlyResetsFrom(Feed(m, chunks).calls, |m.calls|)
    decreases |chunks|
  {
    if chunks != [] {
      var m1 := Step(m, chunks[0]);
      var f := Feed(m1, chunks[1..]);
      assert Feed(m, chunks) == f;
      FeedOnlyResets(m1, chunks[1..]);
      StepCalls(m, chunks[0]);
      assert f.calls[..|m.calls|] == f.calls[..|m1.calls|][..|m.calls|];
      forall i | |m.calls| <= i < |f.calls|
        ensures f.calls[i] == ResetStream
      {
        if i < |m1.calls| {
          assert f.calls[i] == f.calls[..|m1.calls|][i];
        }
      }
    }
  }

  lemma StepCalls(m: Manager, c: Chunk)
    ensures Step(m, c).calls == m.calls + (if Resets(c) == 1 then [ResetStream] else [])
  {
  }

  /** What the loop body leaves alone: everything but the transcription,
      `lastFinalText` and the call log. */
  predicate SameOutsideText(a: Manager, b: Manager) {
    && a.recognizerLoaded == b.recognizerLoaded && a.isRecording == b.isRecording
    && a.streamHeld == b.streamHeld && a.recorderHeld == b.recorderHeld
    && a.loopRunning == b.loopRunning && a.sampleCapacity == b.sampleCapacity
    && a.speech.isListening == b.speech.isListening && a.speech.error == b.speech.error
    && a.speech.isDownloading == b.speech.isDownloading && a.speech.isModelReady == b.speech.isModelReady
    && a.speech.statusMessage == b.speech.statusMessage && a.speech.audioLevel == b.speech.audioLevel
  }

  lemma {:induction false} FeedKeeps(m: Manager, chunks: seq<Chunk>)
    ensures SameOutsideText(m, Feed(m, chunks))
    decreases |chunks|
  {
    if chunks != [] {
      FeedKeeps(Step(m, chunks[0]), chunks[1..]);
    }
  }

  /** `stopListening`: ask the loop to stop and publish "not listening". The
      resources are released by the loop's `finally` block. */
  function StopListening(m: Manager): (m': Manager)
    ensures !m'.isRecording && !m'.speech.isListening
    ensures m' == m.(isRecording := false, speech := m.speech.(isListening := false))
  {
    m.(isRecording := false, speech := m.speech.(isListening := false))
  }

  /** The loop's `finally` block, run on every exit: release and drop the
      stream, then stop, release and drop the recorder. */
  function FinishLoop(m: Manager): (m': Manager)
    ensures !m'.streamHeld && !m'.recorderHeld && !m'.loopRunning
    ensures m'.calls == m.calls + StreamRelease(m) + (if m.recorderHeld then [StopRecorder, ReleaseRecorder] else [])
    ensures m'.speech == m.speech && m'.isRecording == m.isRecording && m'.lastFinalText == m.lastFinalText
  {
    m.(streamHeld := false, recorderHeld := false, loopRunning := false,
       calls := m.calls + StreamRelease(m) + (if m.recorderHeld then [StopRecorder, ReleaseRecorder] else []))
  }

  /** Occurrences of one call in a log. */
  function Count(calls: seq<ResourceCall>, c: ResourceCall): nat {
    if calls == [] then 0 else (if calls[0] == c then 1 else 0) + Count(calls[1..], c)
  }

  lemma {:induction false} CountAppend(a: seq<ResourceCall>, b: seq<ResourceCall>, c: ResourceCall)
    ensures Count(a + b, c) == Count(a, c) + Count(b, c)
    decreases |a|
  {
    if a == [] {
      assert a + b == b;
    } else {
      assert (a + b)[1..] == a[1..] + b;
      CountAppend(a[1..], b, c);
    }
  }

  lemma {:induction false} CountOnlyResets(calls: seq<ResourceCall>, c: ResourceCall)
    requires OnlyResetsFrom(calls, 0) && c != ResetStream
    ensures Count(calls, c) == 0
    decreases |calls|
  {
    if calls != [] {
      CountOnlyResets(calls[1..], c);
    }
  }

  /** How the capture loop ended: `stopListening` was called, or an exception
      (or a missing stream) broke out of it. */
  datatype LoopExit = Stopped | Crashed

  /** A whole capture session: a successful start, the loop over `chunks`,
      then its exit and `finally` block. */
  function Session(m: Manager, minBufferSize: int, chunks: seq<Chunk>, exit: LoopExit): Manager {
    var fed := Feed(StartListening(m, minBufferSize, Started), chunks);
    FinishLoop(if exit == Stopped then StopListening(fed) else fed)
  }

  const SessionOpen := [OpenRecorder, StartRecorder, CreateStream]
  const SessionClose := [ReleaseStream, StopRecorder, ReleaseRecorder]

  /** The calls one session appends to the log: acquire, any number of
      stream resets, release. */
  lemma SessionCallLog(m: Manager, minBufferSize: int, chunks: seq<Chunk>, exit: LoopExit)
    requires m.recognizerLoaded && !m.isRecording && !m.streamHeld
    ensures var s := Session(m, minBufferSize, chunks, exit);
            exists resets :: OnlyResetsFrom(resets, 0) && s.calls == m.calls + SessionOpen + resets + SessionClose
  {
    var started := StartListening(m, minBufferSize, Started);
    var fed := Feed(started, chunks);
    FeedOnlyResets(started, chunks);
    FeedKeeps(started, chunks);
    var resets := fed.calls[|started.calls|..];
    assert fed.calls == started.calls + resets;
    assert OnlyResetsFrom(resets, 0);
  }

  /** Counting a call other than a reset in such a log. */
  lemma {:induction false} CountSessionCalls(resets: seq<ResourceCall>, c: ResourceCall)
    requires OnlyResetsFrom(resets, 0) && c != ResetStream
    ensures c != OpenRecorder && c != StartRecorder ==> Count(SessionOpen + resets + SessionClose, c) == 1
  {
    assert SessionOpen[1..][1..][1..] == [];
    assert SessionClose[1..][1..][1..] == [];
    CountAppend(SessionOpen + resets, SessionClose, c);
    CountAppend(SessionOpen, resets, c);
    CountOnlyResets(resets, c);
  }

  /** The calls one session appends to the log: one stream created and one
      released, the recorder stopped and released once. */
  lemma SessionCallCounts(m: Manager, minBufferSize: int, chunks: seq<Chunk>, exit: LoopExit)
    requires m.recognizerLoaded && !m.isRecording && !m.streamHeld
    ensures var s := Session(m, minBufferSize, chunks, exit);
            && |s.calls| >= |m.calls|
            && Count(s.calls[|m.calls|..], CreateStream) == 1
            && Count(s.calls[|m.calls|..], ReleaseStream) == 1
            && Count(s.calls[|m.calls|..], StopRecorder) == 1
            && Count(s.calls[|m.calls|..], ReleaseRecorder) == 1
  {
    var s := Session(m, minBufferSize, chunks, exit);
    SessionCallLog(m, minBufferSize, chunks, exit);
    var resets :| OnlyResetsFrom(resets, 0) && s.calls == m.calls + SessionOpen + resets + SessionClose;
    assert s.calls[|m.calls|..] == SessionOpen + resets + SessionClose;
    CountSessionCalls(resets, CreateStream);
    CountSessionCalls(resets, ReleaseStream);
    CountSessionCalls(resets, StopRecorder);
    CountSessionCalls(resets, ReleaseRecorder);
  }

  /** Every session, however it ends, creates one stream and releases
      exactly that stream and the recorder once each, holding nothing
      afterwards. Only a stopped session publishes "not listening". */
  lemma SessionReleasesOnce(m: Manager, minBufferSize: int, chunks: seq<Chunk>, exit: LoopExit)
    requires m.recognizerLoaded && !m.isRecording && !m.streamHeld
    ensures var s := Session(m, minBufferSize, chunks, exit);
            && !s.streamHeld && !s.recorderHeld && !s.loopRunning
            && |s.calls| >= |m.calls|
            && Count(s.calls[|m.calls|..], CreateStream) == 1
            && Count(s.calls[|m.calls|..], ReleaseStream) == 1
            && Count(s.calls[|m.calls|..], StopRecorder) == 1
            && Count(s.calls[|m.calls|..], ReleaseRecorder) == 1
            && (exit == Stopped ==> !s.speech.isListening && !s.isRecording)
            && s.lastFinalText == m.lastFinalText + CommittedText(chunks)
  {
    FeedAccumulates(StartListening(m, minBufferSize, Started), chunks);
    SessionCallCounts(m, minBufferSize, chunks, exit);
  }

  /** After a crashed loop `isRecording` is still set, so `startListening`
      does nothing until `stopListening` clears it. */
  lemma CrashBlocksRestart(m: Manager, minBufferSize: int, chunks: seq<Chunk>, minBufferSize': int, outcome: MicOutcome)
    requires m.recognizerLoaded && !m.isRecording
    ensures var s := Session(m, minBufferSize, chunks, Crashed);
            s.isRecording && StartListening(s, minBufferSize', outcome) == s
    ensures var s := StopListening(Session(m, minBufferSize, chunks, Crashed));
            StartListening(s, minBufferSize', Started).isRecording
  {
    FeedKeeps(StartListening(m, minBufferSize, Started), chunks);
  }
}

=== FILE: SpeechSocket.dfy ===
/**
  The text-stream socket client: it connects to the `/text-stream`
  namespace, answers pings, streams `text_chunk` events to the server and
  publishes the questions the server extracts as transcriptions.
 */
module SpeechSocket {
  import opened Wrappers
  import opened Text
  import opened Json
  import opened Frames

  const Namespace := "/text-stream"

  datatype Emission = Send(frame: string) | Transcription(text: string)

  /** The text of one element of `questions`: "" when it has no `question`
      field, `None` where Kotlin throws (the element is not an object, or its
      `question` is not a primitive). */
  function QuestionText(q: JsonValue): (r: Option<string>)
    ensures r.None? <==> !q.JObject? || ("question" in q.fields && Content(q.fields["question"]).None?)
    ensures q.JObject? && "question" !in q.fields ==> r == Some("")
  {
    match q
    case JObject(fields) => if "question" in fields then Content(fields["question"]) else Some("")
    case _ => None
  }

  /** The `questions.forEach` loop: one transcription per element, in order.
      An element that throws ends the loop, so the elements before it have
      already been published. */
  function EmitQuestions(qs: seq<JsonValue>): (r: seq<Emission>)
    ensures |r| <= |qs|
    ensures forall i :: 0 <= i < |r| ==> r[i].Transcription? && QuestionText(qs[i]) == Some(r[i].text)
    ensures |r| < |qs| ==> QuestionText(qs[|r|]).None?
  {
    if qs == [] then []
    else
      match QuestionText(qs[0])
      case None => []
      case Some(t) => [Transcription(t)] + EmitQuestions(qs[1..])
  }

  /** When every element is well formed, every question is published, in
      order. */
  lemma AllQuestionsPublished(qs: seq<JsonValue>)
    requires forall i :: 0 <= i < |qs| ==> QuestionText(qs[i]).Some?
    ensures |EmitQuestions(qs)| == |qs|
    ensures forall i :: 0 <= i < |qs| ==> EmitQuestions(qs)[i] == Transcription(QuestionText(qs[i]).value)
  {
  }

  /** The payload of `questions_extracted`: `data["questions"]?.jsonArray`. */
  function Questions(data: JsonValue): (r: seq<Emission>)
    ensures data.JObject? && "questions" in data.fields && data.fields["questions"].JArray? ==>
              r == EmitQuestions(data.fields["questions"].items)
    ensures !data.JObject? || "questions" !in data.fields || !data.fields["questions"].JArray? ==> r == []
  {
    match data
    case JObject(fields) =>
      if "questions" !in fields then []
      else (
        match fields["questions"]
        case JArray(qs) => EmitQuestions(qs)
        case _ => [])
    case _ => []
  }

  /** The JSON part of an event frame. Only `questions_extracted` with a
      payload publishes anything; `session_started` is only logged. */
  function HandleEvent(json: string, parse: string -> Option<JsonValue>): (r: seq<Emission>)
    ensures parse(json).None? || !parse(json).value.JArray? ==> r == []
    ensures parse(json).Some? && parse(json).value.JArray? ==>
              var items := parse(json).value.items;
              (|items| < 2 || Content(items[0]) != Some("questions_extracted") ==> r == [])
              && (|items| >= 2 && Content(items[0]) == Some("questions_extracted") ==> r == Questions(items[1]))
    ensures forall e :: e in r ==> e.Transcription?
  {
    match parse(json)
    case Some(JArray(items)) =>
      if |items| == 0 then []
      else (
        match Content(items[0])
        case None => []
        case Some(name) =>
          if name == "questions_extracted" && |items| >= 2 then Questions(items[1])
          else [])
    case _ => []
  }

  /** `handleMessage`: one inbound text frame. */
  function HandleMessage(text: string, parse: string -> Option<JsonValue>): (r: seq<Emission>)
    ensures |text| > 0 && text[0] == '2' ==> r == [Send(Pong)]
    ensures |text| > 0 && text[0] == '0' ==> r == []
    ensures !StartsWith(text, "42" + Namespace) && !(|text| > 0 && text[0] == '2') ==> r == []
    ensures StartsWith(text, "42" + Namespace) ==> r == HandleEvent(SubstringAfter(text, ','), parse)
    ensures forall e :: e in r ==> e.Transcription? || e == Send(Pong)
  {
    match Classify(Namespace, text)
    case EngineOpen => []
    case EnginePing => [Send(Pong)]
    case NamespaceEvent(json) => HandleEvent(json, parse)
    case Unhandled => []
  }

  const ChunkHead := "[\"text_chunk\",{\"text\": \""
  const ChunkTail := "\"}]"

  /** The JSON array of a `text_chunk` event; the text goes in unescaped. */
  function ChunkPayload(t: string): string {
    ChunkHead + t + ChunkTail
  }

  /** `sendTextChunk`: the outbound frame for one piece of text. */
  function EncodeTextChunk(t: string): (frame: string)
    ensures frame == "42/text-stream,[\"text_chunk\",{\"text\": \"" + t + "\"}]"
  {
    var frame := EventFrame(Namespace, ChunkPayload(t));
    assert "42" + Namespace + "," + ChunkHead == "42/text-stream,[\"text_chunk\",{\"text\": \"";
    assert frame == ("42" + Namespace + "," + ChunkHead) + t + ChunkTail;
    frame
  }

  /** The chunk frame is addressed to this client's namespace, everything
      after its first comma is the event array, and the text is recovered
      verbatim from between the fixed head and tail, whatever it contains
      (commas and quotes included). */
  lemma TextChunkRoundTrip(t: string)
    ensures StartsWith(EncodeTextChunk(t), "42" + Namespace)
    ensures SubstringAfter(EncodeTextChunk(t), ',') == ChunkPayload(t)
    ensures Classify(Namespace, EncodeTextChunk(t)) == NamespaceEvent(ChunkPayload(t))
    ensures var p := ChunkPayload(t); p[|ChunkHead|..|p| - |ChunkTail|] == t
  {
    EventFrameRoundTrip(Namespace, ChunkPayload(t));
    var p := ChunkPayload(t);
    assert p[|ChunkHead|..|p| - |ChunkTail|] == t;
  }

  /** A chunk echoed back to this client publishes nothing: its event name
      is not `questions_extracted`. */
  lemma EchoedChunkIgnored(t: string, parse: string -> Option<JsonValue>)
    requires parse(ChunkPayload(t)) == Some(JArray([JString("text_chunk"), JObject(map["text" := JString(t)])]))
    ensures HandleMessage(EncodeTextChunk(t), parse) == []
  {
    TextChunkRoundTrip(t);
  }

  /** A frame as delivered by the WebSocket: only text frames are read. */
  datatype WsFrame = TextFrame(text: string) | BinaryFrame

  /** The read loop over the frames received before the connection ended:
      it sends nothing but pongs. */
  function ReadLoop(frames: seq<WsFrame>, parse: string -> Option<JsonValue>): (r: seq<Emission>)
    ensures forall e :: e in r ==> e.Transcription? || e == Send(Pong)
    decreases |frames|
  {
    if frames == [] then []
    else
      var here := match frames[0]
        case TextFrame(t) => HandleMessage(t, parse)
        case BinaryFrame => [];
      here + ReadLoop(frames[1..], parse)
  }

  /** The frames a log sends, in order. */
  function Sends(log: seq<Emission>): seq<string> {
    if log == [] then []
    else (if log[0].Send? then [log[0].frame] else []) + Sends(log[1..])
  }

  lemma {:induction false} SendsAppend(a: seq<Emission>, b: seq<Emission>)
    ensures Sends(a + b) == Sends(a) + Sends(b)
    decreases |a|
  {
    if a == [] {
      assert a + b == b;
    } else {
      var h := if a[0].Send? then [a[0].frame] else [];
      assert (a + b)[1..] == a[1..] + b;
      assert Sends(a + b) == h + Sends(a[1..] + b);
      SendsAppend(a[1..], b);
      assert h + (Sends(a[1..]) + Sends(b)) == (h + Sends(a[1..])) + Sends(b);
    }
  }

  predicate IsPing(f: WsFrame) {
    f.TextFrame? && |f.text| > 0 && f.text[0] == '2'
  }

  function CountPings(frames: seq<WsFrame>): nat {
    if frames == [] then 0 else (if IsPing(frames[0]) then 1 else 0) + CountPings(frames[1..])
  }

  /** One frame's sends: a pong for a ping, nothing otherwise. */
  lemma FrameSends(t: string, parse: string -> Option<JsonValue>)
    ensures Sends(HandleMessage(t, parse)) == (if |t| > 0 && t[0] == '2' then [Pong] else [])
  {
    var r := HandleMessage(t, parse);
    if |t| > 0 && t[0] == '2' {
      assert r == [Send(Pong)];
    } else {
      NoSends(r);
    }
  }

  lemma {:induction false} NoSends(log: seq<Emission>)
    requires forall e :: e in log ==> e.Transcription?
    ensures Sends(log) == []
    decreases |log|
  {
    if log != [] {
      assert log[0] in log;
      assert forall e :: e in log[1..] ==> e in log;
      NoSends(log[1..]);
    }
  }

  /** Over a whole read loop the client sends exactly one pong per ping. */
  lemma {:induction false} OnePongPerPing(frames: seq<WsFrame>, parse: string -> Option<JsonValue>)
    ensures Sends(ReadLoop(frames, parse)) == seq(CountPings(frames), _ => Pong)
    decreases |frames|
  {
    if frames != [] {
      var here := match frames[0]
        case TextFrame(t) => HandleMessage(t, parse)
        case BinaryFrame => [];
      OnePongPerPing(frames[1..], parse);
      SendsAppend(here, ReadLoop(frames[1..], parse));
      if frames[0].TextFrame? {
        FrameSends(frames[0].text, parse);
      } else {
        assert Sends(here) == [];
      }
    }
  }

  /** Refused; opened, but the namespace connect packet could not be sent;
      or opened and then closed after delivering `frames`. */
  datatype ConnectOutcome = Refused | NamespaceSendFailed | Opened(frames: seq<WsFrame>)

  /** The client's only state: whether it holds a session to send on. */
  datatype Client = Client(hasSession: bool)

  datatype Run = Run(url: string, client: Client, log: seq<Emission>)

  /** `connect(host, port)`. A refused connection emits nothing, and so does
      one whose namespace connect cannot be sent, though the session is then
      already held. An opened one first sends the namespace connect; when its
      read loop ends the session reference is kept (only `disconnect` clears
      it). */
  function Connect(c: Client, host: string, port: int, outcome: ConnectOutcome,
                   parse: string -> Option<JsonValue>): (r: Run)
    ensures r.url == ConnectionUrl(host, port)
    ensures outcome.Refused? ==> r.client == c && r.log == []
    ensures outcome.NamespaceSendFailed? ==> r.client.hasSession && r.log == []
    ensures outcome.Opened? ==>
              && r.client.hasSession && |r.log| >= 1 && r.log[0] == Send(NamespaceConnect(Namespace))
              && Sends(r.log) == [NamespaceConnect(Namespace)] + seq(CountPings(outcome.frames), _ => Pong)
              && (forall e :: e in r.log[1..] ==> e.Transcription? || e == Send(Pong))
              && r.log == [Send(NamespaceConnect(Namespace))] + ReadLoop(outcome.frames, parse)
  {
    var url := ConnectionUrl(host, port);
    match outcome
    case Refused => Run(url, c, [])
    case NamespaceSendFailed => Run(url, Client(true), [])
    case Opened(frames) =>
      var body := ReadLoop(frames, parse);
      OnePongPerPing(frames, parse);
      SendsAppend([Send(NamespaceConnect(Namespace))], body);
      assert ([Send(NamespaceConnect(Namespace))] + body)[1..] == body;
      Run(url, Client(true), [Send(NamespaceConnect(Namespace))] + body)
  }

  /** `sendTextChunk`: sent on the session if there is one, otherwise dropped. */
  function SendTextChunk(c: Client, t: string): (r: seq<Emission>)
    ensures c.hasSession ==> r == [Send(EncodeTextChunk(t))]
    ensures !c.hasSession ==> r == []
  {
    if c.hasSession then [Send(EncodeTextChunk(t))] else []
  }

  function Disconnect(c: Client): (r: Client)
    ensures !r.hasSession
  {
    Client(false)
  }
}

=== FILE: Text.dfy ===
/**
  The Kotlin string operations the application relies on, stated over
  `string` (a `seq<char>`): prefix tests, `trim`, `substringAfter`,
  `indexOf`, `replaceFirstChar` and decimal rendering of integers.
 */
module Text {
  import opened Wrappers

  predicate StartsWith(s: string, prefix: string) {
    |prefix| <= |s| && s[..|prefix|] == prefix
  }

  /** Kotlin's `Char.isWhitespace()`: the separators plus the ASCII controls
      0x09-0x0D and 0x1C-0x1F. */
  predicate IsWhitespace(c: char) {
    || ('\t' <= c <= '\r')
    || ('\U{1C}' <= c <= ' ')
    || c == '\U{A0}'
    || c == '\U{1680}'
    || ('\U{2000}' <= c <= '\U{200A}')
    || c == '\U{2028}'
    || c == '\U{2029}'
    || c == '\U{202F}'
    || c == '\U{205F}'
    || c == '\U{3000}'
  }

  predicate AllWhitespace(s: string) {
    forall i :: 0 <= i < |s| ==> IsWhitespace(s[i])
  }

  /** Kotlin's `isBlank()`. */
  predicate IsBlank(s: string) {
    AllWhitespace(s)
  }

  /** No whitespace at either end: what `trim` produces. */
  predicate Trimmed(s: string) {
    s == [] || (!IsWhitespace(s[0]) && !IsWhitespace(s[|s| - 1]))
  }

  /** Drops leading whitespace. */
  function TrimStart(s: string): (r: string)
    ensures |r| <= |s| && r == s[|s| - |r|..]
    ensures AllWhitespace(s[..|s| - |r|])
    ensures r == [] || !IsWhitespace(r[0])
  {
    if |s| > 0 && IsWhitespace(s[0]) then
      var r := TrimStart(s[1..]);
      assert s[1..][..|s| - 1 - |r|] == s[1..|s| - |r|];
      r
    else s
  }

  /** Drops trailing whitespace. */
  function TrimEnd(s: string): (r: string)
    ensures |r| <= |s| && r == s[..|r|]
    ensures AllWhitespace(s[|r|..])
    ensures r == [] || !IsWhitespace(r[|r| - 1])
  {
    if |s| > 0 && IsWhitespace(s[|s| - 1]) then
      var r := TrimEnd(s[..|s| - 1]);
      assert s[..|s| - 1][|r|..] == s[|r|..|s| - 1];
      r
    else s
  }

  /** Kotlin's `trim()`: the text between the leading and trailing whitespace. */
  function Trim(s: string): (r: string)
    ensures Trimmed(r)
    ensures |r| <= |s|
    ensures r == [] <==> AllWhitespace(s)
  {
    var t := TrimStart(s);
    var r := TrimEnd(t);
    assert r == [] ==> t == [];
    assert r == [] ==> s == s[..|s| - |t|];
    assert r != [] ==> r[0] == t[0];
    r
  }

  lemma {:induction false} TrimStartOfPadded(a: string, d: string)
    requires AllWhitespace(a)
    requires d == [] || !IsWhitespace(d[0])
    ensures TrimStart(a + d) == d
    decreases |a|
  {
    if a == [] {
      assert a + d == d;
    } else {
      assert (a + d)[1..] == a[1..] + d;
      TrimStartOfPadded(a[1..], d);
    }
  }

  lemma {:induction false} TrimEndOfPadded(d: string, b: string)
    requires AllWhitespace(b)
    requires d == [] || !IsWhitespace(d[|d| - 1])
    ensures TrimEnd(d + b) == d
    decreases |b|
  {
    if b == [] {
      assert d + b == d;
    } else {
      assert (d + b)[..|d + b| - 1] == d + b[..|b| - 1];
      TrimEndOfPadded(d, b[..|b| - 1]);
    }
  }

  /** Trimming removes exactly the surrounding whitespace: a trimmed text
      padded with whitespace on both sides trims back to itself. */
  lemma TrimOfPadded(a: string, d: string, b: string)
    requires AllWhitespace(a) && AllWhitespace(b) && Trimmed(d)
    ensures Trim(a + d + b) == d
  {
    if d == [] {
      assert a + d + b == a + b;
      assert AllWhitespace(a + b);
    } else {
      assert a + d + b == a + (d + b);
      assert (d + b)[0] == d[0];
      TrimStartOfPadded(a, d + b);
      TrimEndOfPadded(d, b);
    }
  }

  /** `trim` is idempotent. */
  lemma TrimIdempotent(s: string)
    ensures Trim(Trim(s)) == Trim(s)
  {
    var t := Trim(s);
    assert t == [] + t + [];
    TrimOfPadded([], t, []);
  }

  /** Index of the first occurrence of `c` (Kotlin's `indexOf`, with -1 as None). */
  function IndexOf(s: string, c: char): (r: Option<nat>)
    ensures r.Some? ==> r.value < |s| && s[r.value] == c
    ensures r.Some? ==> forall j :: 0 <= j < r.value ==> s[j] != c
    ensures r.None? <==> c !in s
  {
    if |s| == 0 then None
    else if s[0] == c then Some(0)
    else
      match IndexOf(s[1..], c)
      case None => None
      case Some(k) => Some(k + 1)
  }

  /** The first occurrence of `c` in `a + [c] + b` is right after `a` when
      `a` does not contain `c`. */
  lemma IndexOfSplit(a: string, c: char, b: string)
    requires c !in a
    ensures IndexOf(a + [c] + b, c) == Some(|a|)
  {
    var s := a + [c] + b;
    assert s[|a|] == c;
    assert forall j :: 0 <= j < |a| ==> s[j] == a[j];
  }

  /** Kotlin's `substringAfter(delimiter)`: the text after the first occurrence
      of `delimiter`, or the whole text when it does not occur. */
  function SubstringAfter(s: string, delimiter: char): (r: string)
    ensures delimiter !in s ==> r == s
    ensures delimiter in s ==> exists k :: 0 <= k < |s| && s[k] == delimiter && delimiter !in s[..k] && r == s[k + 1..]
  {
    match IndexOf(s, delimiter)
    case None => s
    case Some(k) =>
      assert delimiter !in s[..k];
      s[k + 1..]
  }

  /** When the delimiter does not occur in `a`, everything after its first
      occurrence in `a + [delimiter] + b` is `b`. */
  lemma SubstringAfterSplit(a: string, delimiter: char, b: string)
    requires delimiter !in a
    ensures SubstringAfter(a + [delimiter] + b, delimiter) == b
  {
    var s := a + [delimiter] + b;
    IndexOfSplit(a, delimiter, b);
    assert s[|a| + 1..] == b;
  }

  predicate IsLowerCase(c: char) {
    'a' <= c <= 'z'
  }

  function TitleCase(c: char): char
    requires IsLowerCase(c)
  {
    (c as int - 'a' as int + 'A' as int) as char
  }

  /** `replaceFirstChar { if (it.isLowerCase()) it.titlecase() else it.toString() }`:
      only a lower-case first letter changes. */
  function Capitalize(s: string): (r: string)
    ensures |r| == |s|
    ensures |s| > 0 ==> r[1..] == s[1..]
    ensures |s| > 0 && !IsLowerCase(s[0]) ==> r == s
    ensures |s| > 0 && IsLowerCase(s[0]) ==> 'A' <= r[0] <= 'Z' && r[0] as int == s[0] as int - 32
  {
    if |s| > 0 && IsLowerCase(s[0]) then [TitleCase(s[0])] + s[1..] else s
  }
  /** Whatever `trim` keeps is a piece of its input. */
  lemma TrimIsInner(s: string)
    ensures forall c :: c in Trim(s) ==> c in s
  {
    var t := TrimStart(s);
    var r := TrimEnd(t);
    assert forall i :: 0 <= i < |r| ==> r[i] == t[i];
    assert forall i :: 0 <= i < |t| ==> t[i] == s[|s| - |t| + i];
  }

  predicate IsDigit(c: char) {
    '0' <= c <= '9'
  }

  function DigitChar(d: nat): (c: char)
    requires d < 10
    ensures IsDigit(c)
  {
    ('0' as int + d) as char
  }

  function DigitValue(c: char): nat
    requires IsDigit(c)
  {
    c as int - '0' as int
  }

  /** Decimal value of a digit string. */
  function ParseDecimal(s: string): nat
    requires forall i :: 0 <= i < |s| ==> IsDigit(s[i])
  {
    if s == [] then 0 else 10 * ParseDecimal(s[..|s| - 1]) + DigitValue(s[|s| - 1])
  }

  /** Kotlin's `toString()` of a non-negative number. */
  function NatToString(n: nat): (r: string)
    ensures |r| >= 1
    ensures forall i :: 0 <= i < |r| ==> IsDigit(r[i])
    ensures |r| > 1 ==> r[0] != '0'
    ensures ParseDecimal(r) == n
    decreases n
  {
    if n < 10 then [DigitChar(n)]
    else
      var r := NatToString(n / 10) + [DigitChar(n % 10)];
      assert r[..|r| - 1] == NatToString(n / 10);
      r
  }

  /** Kotlin's `toString()` of an integer: a minus sign before negative values. */
  function IntToString(n: int): (r: string)
    ensures n >= 0 ==> r == NatToString(n)
    ensures n < 0 ==> r == "-" + NatToString(-n)
    ensures ':' !in r && '/' !in r && ',' !in r
  {
    if n < 0 then "-" + NatToString(-n) else NatToString(n)
  }
}

=== FILE: ViewModel.dfy ===
/**
  The main screen's view model: the chat message list, the snackbar, the
  message-options dialog, the settings sheet and its configuration, and the
  rules that decide when a prompt command or a manual transcription is sent.

  Calls into the socket clients, the recognizer and the configuration
  service are recorded, in order, as `Effect`s; their results (connection
  state, current transcription, server responses, random ids) are
  parameters.
 */
module ViewModel {
  import opened Wrappers
  import opened Text
  import opened Model

  datatype ChatMessage = ChatMessage(id: string, text: string, isUser: bool, timestamp: int)

  /** Calls made on collaborators, in the order made. */
  datatype Effect =
    | InitializeRecognizer
    | EmitUsePrompt(promptType: string, messageId: string, screenshotRequired: bool)
    | SendTranscriptionChunk(text: string)
    | ProcessTranscription
    | ConnectSocket(host: string, port: int)
    | DisconnectSocket
    | StartRecognizer
    | StopRecognizer
    | ClearRecognizer
    | FetchConfig
    | SaveConfig(config: ApiConfig)

  datatype Screen = Screen(
    messages: seq<ChatMessage>,
    snackbar: Option<string>,
    /** Every value the snackbar has been set to, oldest first. */
    notices: seq<Option<string>>,
    selectedMessageId: Option<string>,
    optionsOpen: bool,
    settingsOpen: bool,
    config: Option<ApiConfig>,
    effects: seq<Effect>)

  /** The screen as the view model is constructed: empty, with the
      recognizer's model initialization already requested. */
  const InitialScreen := Screen([], None, [], None, false, false, None, [InitializeRecognizer])

  /** The server the data socket connects to. */
  const Host := "192.168.0.106"
  const Port := 4000

  function SetSnackbar(s: Screen, v: Option<string>): Screen {
    s.(snackbar := v, notices := s.notices + [v])
  }

  /** The snackbar shows the value it was last set to. */
  predicate SnackbarIsLatest(s: Screen) {
    if s.notices == [] then s.snackbar == None else s.snackbar == s.notices[|s.notices| - 1]
  }

  /** `s'` extends `s`: messages, collaborator calls and snackbar history
      are only appended to, and the snackbar still shows its latest value. */
  predicate Grows(s: Screen, s': Screen) {
    && |s'.messages| >= |s.messages| && s'.messages[..|s.messages|] == s.messages
    && |s'.effects| >= |s.effects| && s'.effects[..|s.effects|] == s.effects
    && |s'.notices| >= |s.notices| && s'.notices[..|s.notices|] == s.notices
    && (SnackbarIsLatest(s) ==> SnackbarIsLatest(s'))
  }

  /** An answer from the data socket becomes a non-user message. */
  function AnswerMessage(a: Answer): (m: ChatMessage)
    ensures !m.isUser && m.id == a.id && m.text == a.answer && m.timestamp == a.timestamp
  {
    ChatMessage(a.id, a.answer, false, a.timestamp)
  }

  function ReceiveAnswer(s: Screen, a: Answer): (s': Screen)
    ensures s'.messages == s.messages + [AnswerMessage(a)]
    ensures s' == s.(messages := s'.messages)
    ensures Grows(s, s')
  {
    s.(messages := s.messages + [AnswerMessage(a)])
  }

  function ReceiveAnswers(s: Screen, answers: seq<Answer>): Screen
    decreases |answers|
  {
    if answers == [] then s else ReceiveAnswers(ReceiveAnswer(s, answers[0]), answers[1..])
  }

  /** Answers are appended in arrival order, each carrying its own id, text
      and timestamp, after the messages already there. */
  lemma {:induction false} AnswersAppendInOrder(s: Screen, answers: seq<Answer>)
    ensures var s' := ReceiveAnswers(s, answers);
            && |s'.messages| == |s.messages| + |answers|
            && s'.messages[..|s.messages|] == s.messages
            && forall k :: 0 <= k < |answers| ==> s'.messages[|s.messages| + k] == AnswerMessage(answers[k])
    decreases |answers|
  {
    if answers != [] {
      var s1 := ReceiveAnswer(s, answers[0]);
      AnswersAppendInOrder(s1, answers[1..]);
      var s' := ReceiveAnswers(s, answers);
      assert s'.messages[..|s1.messages|][..|s.messages|] == s.messages;
      forall k | 0 <= k < |answers|
        ensures s'.messages[|s.messages| + k] == AnswerMessage(answers[k])
      {
        if k == 0 {
          assert s'.messages[..|s1.messages|][|s.messages|] == AnswerMessage(answers[0]);
        } else {
          assert s'.messages[|s1.messages| + (k - 1)] == AnswerMessage(answers[1..][k - 1]);
        }
      }
    }
  }

  /** A status string from the data socket goes to the snackbar. */
  function ReceiveStatus(s: Screen, message: string): (s': Screen)
    ensures s'.snackbar == Some(message) && s'.notices == s.notices + [Some(message)]
    ensures s' == s.(snackbar := s'.snackbar, notices := s'.notices)
    ensures Grows(s, s')
  {
    SetSnackbar(s, Some(message))
  }

  /** `toggleSocketConnection`: disconnect when connected, otherwise connect
      to the configured server; `connectThrew` says whether the connect call
      raised. */
  function ToggleSocketConnection(s: Screen, connected: bool, connectThrew: bool): (s': Screen)
    ensures connected ==> s' == s.(effects := s.effects + [DisconnectSocket])
    ensures !connected ==> s'.effects == s.effects + [ConnectSocket(Host, Port)]
    ensures !connected && connectThrew ==>
              && s'.snackbar == Some("Socket connection refused") && s'.notices == s.notices + [s'.snackbar]
              && s' == s.(effects := s'.effects, snackbar := s'.snackbar, notices := s'.notices)
    ensures !connected && !connectThrew ==> s' == s.(effects := s'.effects)
    ensures Grows(s, s')
  {
    if connected then s.(effects := s.effects + [DisconnectSocket])
    else
      var s1 := s.(effects := s.effects + [ConnectSocket(Host, Port)]);
      if connectThrew then SetSnackbar(s1, Some("Socket connection refused")) else s1
  }

  /** How fetching the configuration went: the call raised, or it returned a
      response (possibly null). */
  datatype FetchOutcome = FetchThrew | Fetched(response: Option<ConfigResponse>)

  const FetchingNotice := "Fetching configuration..."
  const FetchFailedNotice := "Failed to update config from server."
  const FetchErrorNotice := "Network error fetching config."

  predicate Succeeded(response: Option<ConfigResponse>) {
    response.Some? && response.value.success
  }

  /** The error text of a failed response, or the fallback. */
  function ErrorOr(response: Option<ConfigResponse>, fallback: string): (r: string)
    ensures response.Some? && response.value.error.Some? ==> r == response.value.error.value
    ensures response.None? || response.value.error.None? ==> r == fallback
  {
    if response.Some? && response.value.error.Some? then response.value.error.value else fallback
  }

  /** `openSettings`. The snackbar first shows the fetching notice. A
      successful response opens the sheet, clears the snackbar and replaces
      the configuration only when it carries one; anything else leaves the
      sheet closed and explains why. */
  function OpenSettings(s: Screen, fetch: FetchOutcome): (s': Screen)
    ensures s'.effects == s.effects + [FetchConfig] && s'.messages == s.messages
    ensures |s'.notices| == |s.notices| + 2 && s'.notices[|s.notices|] == Some(FetchingNotice)
    ensures fetch.Fetched? && Succeeded(fetch.response) ==>
              && s'.settingsOpen && s'.snackbar == None
              && (fetch.response.value.config.Some? ==> s'.config == fetch.response.value.config)
              && (fetch.response.value.config.None? ==> s'.config == s.config)
    ensures fetch.Fetched? && !Succeeded(fetch.response) ==>
              && s'.settingsOpen == s.settingsOpen && s'.config == s.config
              && s'.snackbar == Some(ErrorOr(fetch.response, FetchFailedNotice))
    ensures fetch.FetchThrew? ==>
              s'.settingsOpen == s.settingsOpen && s'.config == s.config && s'.snackbar == Some(FetchErrorNotice)
    ensures s' == s.(effects := s'.effects, snackbar := s'.snackbar, notices := s'.notices,
                     settingsOpen := s'.settingsOpen, config := s'.config)
    ensures Grows(s, s')
  {
    var s1 := SetSnackbar(s.(effects := s.effects + [FetchConfig]), Some(FetchingNotice));
    match fetch
    case FetchThrew => SetSnackbar(s1, Some(FetchErrorNotice))
    case Fetched(response) =>
      if Succeeded(response) then
        var s2 := if response.value.config.Some? then s1.(config := response.value.config) else s1;
        SetSnackbar(s2, None).(settingsOpen := true)
      else SetSnackbar(s1, Some(ErrorOr(response, FetchFailedNotice)))
  }

  function CloseSettings(s: Screen): (s': Screen)
    ensures !s'.settingsOpen
    ensures s' == s.(settingsOpen := false)
    ensures Grows(s, s')
  {
    s.(settingsOpen := false)
  }

  const SavingNotice := "Saving..."
  const SavedNotice := "Configuration saved!"
  const SaveFailedNotice := "Failed to save"

  /** `saveSettings`. On success the configuration becomes whatever the
      response carries, even nothing, and the sheet closes; on failure the
      sheet stays as it is and the snackbar explains. */
  function SaveSettings(s: Screen, newConfig: ApiConfig, response: Option<ConfigResponse>): (s': Screen)
    ensures s'.effects == s.effects + [SaveConfig(newConfig)] && s'.messages == s.messages
    ensures |s'.notices| == |s.notices| + 2 && s'.notices[|s.notices|] == Some(SavingNotice)
    ensures Succeeded(response) ==>
              !s'.settingsOpen && s'.config == response.value.config && s'.snackbar == Some(SavedNotice)
    ensures !Succeeded(response) ==>
              && s'.settingsOpen == s.settingsOpen && s'.config == s.config
              && s'.snackbar == Some(ErrorOr(response, SaveFailedNotice))
    ensures s' == s.(effects := s'.effects, snackbar := s'.snackbar, notices := s'.notices,
                     settingsOpen := s'.settingsOpen, config := s'.config)
    ensures Grows(s, s')
  {
    var s1 := SetSnackbar(s.(effects := s.effects + [SaveConfig(newConfig)]), Some(SavingNotice));
    if Succeeded(response) then
      SetSnackbar(s1.(config := response.value.config, settingsOpen := false), Some(SavedNotice))
    else SetSnackbar(s1, Some(ErrorOr(response, SaveFailedNotice)))
  }

  function DismissSnackbar(s: Screen): (s': Screen)
    ensures s'.snackbar == None && s'.notices == s.notices + [None]
    ensures s' == s.(snackbar := s'.snackbar, notices := s'.notices)
    ensures Grows(s, s')
  {
    SetSnackbar(s, None)
  }

  /** `startListening`, `stopListening` and `clearTranscription` only
      forward to the recognizer. */
  function StartListening(s: Screen): (s': Screen)
    ensures s' == s.(effects := s.effects + [StartRecognizer])
    ensures Grows(s, s')
  {
    s.(effects := s.effects + [StartRecognizer])
  }

  function StopListening(s: Screen): (s': Screen)
    ensures s' == s.(effects := s.effects + [StopRecognizer])
    ensures Grows(s, s')
  {
    s.(effects := s.effects + [StopRecognizer])
  }

  function ClearTranscription(s: Screen): (s': Screen)
    ensures s' == s.(effects := s.effects + [ClearRecognizer])
    ensures Grows(s, s')
  {
    s.(effects := s.effects + [ClearRecognizer])
  }

  /** `triggerManualProcessing`, given the connection state, the current
      transcription and the random number drawn for the id. Only when
      connected with a non-blank transcription: add the transcription as a
      user message, send it, clear the recognizer, and ask the server to
      process, in that order. */
  function TriggerManualProcessing(s: Screen, connected: bool, transcription: string, rnd: nat): (s': Screen)
    ensures !(connected && !IsBlank(transcription)) ==> s' == s
    ensures connected && !IsBlank(transcription) ==>
              && s'.messages == s.messages + [ChatMessage("msg_" + NatToString(rnd), transcription, true, 0)]
              && s'.effects == s.effects + [SendTranscriptionChunk(transcription), ClearRecognizer, ProcessTranscription]
              && s' == s.(messages := s'.messages, effects := s'.effects)
    ensures Grows(s, s')
  {
    if connected && !IsBlank(transcription) then
      s.(messages := s.messages + [ChatMessage("msg_" + NatToString(rnd), transcription, true, 0)],
         effects := s.effects + [SendTranscriptionChunk(transcription), ClearRecognizer, ProcessTranscription])
    else s
  }

  function OpenMessageOptions(s: Screen, messageId: string): (s': Screen)
    ensures s'.selectedMessageId == Some(messageId) && s'.optionsOpen
    ensures s' == s.(selectedMessageId := Some(messageId), optionsOpen := true)
    ensures Grows(s, s')
  {
    s.(selectedMessageId := Some(messageId), optionsOpen := true)
  }

  function CloseMessageOptions(s: Screen): (s': Screen)
    ensures s'.selectedMessageId == None && !s'.optionsOpen
    ensures s' == s.(selectedMessageId := None, optionsOpen := false)
    ensures Grows(s, s')
  {
    s.(selectedMessageId := None, optionsOpen := false)
  }

  /** Only the debug prompt asks for a screenshot. */
  predicate ScreenshotRequired(promptType: string) {
    promptType == "debug"
  }

  /** The chat text of a prompt command: the capitalised prompt type, a
      space, and "(Snapshot)" for debug only, so other types keep a trailing
      space. */
  function CommandText(promptType: string): (r: string)
    ensures ScreenshotRequired(promptType) ==> r == "Debug (Snapshot)"
    ensures !ScreenshotRequired(promptType) ==>
              |r| == |promptType| + 1 && r[..|promptType|] == Capitalize(promptType) && r[|promptType|] == ' '
  {
    if ScreenshotRequired(promptType) then
      CapitalizeDebug();
      Capitalize(promptType) + " " + "(Snapshot)"
    else Capitalize(promptType) + " " + ""
  }

  lemma CapitalizeDebug()
    ensures Capitalize("debug") == "Debug"
  {
    var c := Capitalize("debug");
    assert c[1..] == "ebug";
    assert c == [c[0]] + c[1..];
  }

  const CannotSendNotice := "Cannot send command (Disconnected or No Message ID)"

  /** `sendPromptOption`. With a selected message while connected: add the
      command as a user message, emit the prompt for that message, then
      close the dialog. Otherwise: close the dialog and explain, with the
      messages untouched. */
  function SendPromptOption(s: Screen, promptType: string, connected: bool, rnd: nat): (s': Screen)
    ensures !s'.optionsOpen && s'.selectedMessageId == None
    ensures s.selectedMessageId.Some? && connected ==>
              && s'.messages == s.messages + [ChatMessage("cmd_" + NatToString(rnd), CommandText(promptType), true, 0)]
              && s'.effects == s.effects + [EmitUsePrompt(promptType, s.selectedMessageId.value, ScreenshotRequired(promptType))]
              && s'.snackbar == s.snackbar && s'.notices == s.notices
    ensures !(s.selectedMessageId.Some? && connected) ==>
              && s'.messages == s.messages && s'.effects == s.effects
              && s'.snackbar == Some(CannotSendNotice) && s'.notices == s.notices + [s'.snackbar]
    ensures s' == s.(messages := s'.messages, effects := s'.effects, snackbar := s'.snackbar, notices := s'.notices,
                     selectedMessageId := None, optionsOpen := false)
    ensures Grows(s, s')
  {
    if s.selectedMessageId.Some? && connected then
      var id := s.selectedMessageId.value;
      var s1 := s.(messages := s.messages + [ChatMessage("cmd_" + NatToString(rnd), CommandText(promptType), true, 0)],
                   effects := s.effects + [EmitUsePrompt(promptType, id, ScreenshotRequired(promptType))]);
      CloseMessageOptions(s1)
    else SetSnackbar(CloseMessageOptions(s), Some(CannotSendNotice))
  }

  /** Everything that can happen to the screen. */
  datatype Event =
    | AnswerArrived(answer: Answer)
    | StatusArrived(message: string)
    | ToggleConnection(connected: bool, connectThrew: bool)
    | OpenSettingsTapped(fetch: FetchOutcome)
    | CloseSettingsTapped
    | SaveSettingsTapped(config: ApiConfig, response: Option<ConfigResponse>)
    | SnackbarDismissed
    | StartTapped
    | StopTapped
    | ClearTapped
    | ProcessTapped(connected: bool, transcription: string, rnd: nat)
    | MessageLongPressed(messageId: string)
    | OptionsClosed
    | PromptChosen(promptType: string, connected: bool, rnd: nat)

  function Apply(s: Screen, e: Event): Screen {
    match e
    case AnswerArrived(a) => ReceiveAnswer(s, a)
    case StatusArrived(m) => ReceiveStatus(s, m)
    case ToggleConnection(c, t) => ToggleSocketConnection(s, c, t)
    case OpenSettingsTapped(f) => OpenSettings(s, f)
    case CloseSettingsTapped => CloseSettings(s)
    case SaveSettingsTapped(c, r) => SaveSettings(s, c, r)
    case SnackbarDismissed => DismissSnackbar(s)
    case StartTapped => StartListening(s)
    case StopTapped => StopListening(s)
    case ClearTapped => ClearTranscription(s)
    case ProcessTapped(c, t, n) => TriggerManualProcessing(s, c, t, n)
    case MessageLongPressed(id) => OpenMessageOptions(s, id)
    case OptionsClosed => CloseMessageOptions(s)
    case PromptChosen(p, c, n) => SendPromptOption(s, p, c, n)
  }

  function Run(s: Screen, events: seq<Event>): Screen
    decreases |events|
  {
    if events == [] then s else Run(Apply(s, events[0]), events[1..])
  }

  /** One event only appends to the message list, the effect log and the
      snackbar history, and leaves the snackbar showing its latest value. */
  lemma ApplyGrows(s: Screen, e: Event)
    ensures Grows(s, Apply(s, e))
  {
    match e
    case AnswerArrived(a) =>
    case StatusArrived(m) =>
    case ToggleConnection(c, t) =>
    case OpenSettingsTapped(f) =>
    case CloseSettingsTapped =>
    case SaveSettingsTapped(c, r) =>
    case SnackbarDismissed =>
    case StartTapped =>
    case StopTapped =>
    case ClearTapped =>
    case ProcessTapped(c, t, n) =>
    case MessageLongPressed(id) =>
    case OptionsClosed =>
    case PromptChosen(p, c, n) =>
  }

  /** Over any sequence of events the message list only grows (earlier
      messages are never changed or removed), collaborator calls are never
      retracted, and the snackbar always shows the value last set. */
  /** From construction on, the first collaborator call is always the
      recognizer's initialization, and the snackbar shows the last value it
      was set to. */
  lemma StartsInitialized(events: seq<Event>)
    ensures var s' := Run(InitialScreen, events);
            |s'.effects| >= 1 && s'.effects[0] == InitializeRecognizer && SnackbarIsLatest(s')
  {
    var s := InitialScreen;
    assert SnackbarIsLatest(s);
    MessagesOnlyGrow(s, events);
    var s' := Run(s, events);
    assert |s.effects| == 1 && s.effects[0] == InitializeRecognizer;
    assert s'.effects[..|s.effects|] == s.effects;
    assert s'.effects[0] == s'.effects[..|s.effects|][0];
  }

  lemma {:induction false} MessagesOnlyGrow(s: Screen, events: seq<Event>)
    requires SnackbarIsLatest(s)
    ensures var s' := Run(s, events);
            && |s'.messages| >= |s.messages| && s'.messages[..|s.messages|] == s.messages
            && |s'.effects| >= |s.effects| && s'.effects[..|s.effects|] == s.effects
            && SnackbarIsLatest(s')
    decreases |events|
  {
    if events != [] {
      var s1 := Apply(s, events[0]);
      ApplyGrows(s, events[0]);
      MessagesOnlyGrow(s1, events[1..]);
      var s' := Run(s, events);
      assert s'.messages[..|s1.messages|][..|s.messages|] == s'.messages[..|s.messages|];
      assert s'.effects[..|s1.effects|][..|s.effects|] == s'.effects[..|s.effects|];
    }
  }
}

=== FILE: Wrappers.dfy ===
/** Optional values: the model's stand-in for Kotlin's nullable types. */
module Wrappers {

  datatype Option<+T> = None | Some(value: T) {

    /** The wrapped value, or `default` when absent (Kotlin's `?:`). */
    function GetOr(default: T): T {
      match this
      case Some(v) => v
      case None => default
    }
  }
}
